=== FILE: README.md ===
# Payroll payments, invoices and reports — a Dafny model

This project models the rule-bearing core of the CityLights payroll backend (NestJS, Prisma, Stripe, PDFKit). It covers five areas:

- **Invoices.** Numbering, the three-tier fiscal legend, the control code, the `factura_nomina_<id>_<ts>.pdf` naming scheme, and lookup by file-name substring. Also the invoice listing and the "already issued" short-circuit.
- **Receipts and the monthly payroll report.** The month range, the y-cursor pagination of the table, and the running total.
- **Expense documents.** Vouchers, plus the general and monthly expense reports: counts, sums, row text, month names and the empty-month line.
- **The payment lifecycle of both payment services.** Record creation, the Stripe gate, the transition to `COMPLETADO`, and invoice failures that do not roll the payment back.
- **The small request normalisers and the status-count fold.** These live in the controllers and the worker service.

The database is the `Ledger.Db` record, with one map per table. A directory is `DocStore.Dir`: it is absent, unreadable, or holds a listing in order. Stripe, SHA-256, the clock, and float or locale formatting are parameters.

The modules follow the source files:

| module | source file |
|---|---|
| `FacturaNomina` | src/factura/factura-nomina.service.ts |
| `NominaPdf` | src/pdf/pdf.service.ts |
| `EgresoPdf` | src/pagar/pdf.service.ts |
| `PagoService` | src/pago/pago.service.ts |
| `PagarService` | src/pagar/pagar.service.ts |
| `PagoController` | src/pago/pago.controller.ts |
| `PagarController` | src/pagar/pagar.controller.ts |
| `NominaController` | src/nomina/nomina.controller.ts |
| `TrabajadorService` | src/trabajador/trabajador.service.ts |

The support modules hold the JavaScript semantics that the services rely on:

- `Text`: `padStart`, `String(n)`, `parseInt`, `includes`, `substring` and `toUpperCase`.
- `Calendar`: `new Date(y, m, d)` with month overflow and day 0.
- `Json`: untyped bodies, truthiness and `String(v)`.
- `Sorting`: `Array.prototype.sort` is stable.
- `Seqs`: `reduce` and `filter`.
- `Wrappers`: `Option` and `Result`.

Notes on the source:

- The monthly payroll report (src/pdf/pdf.service.ts:178) writes `reporte_nominas_<año>_<mes>_<ts>.pdf` into `facturas` and never creates that directory.
- The monthly expense report (src/pagar/pdf.service.ts:98) writes `reporte_mensual_<mes>_<anio>_<ts>.pdf` into `egresos`.
- No code reads either report name back.
- Only the receipt writer and the monthly payroll report wait for their stream. The invoice, voucher and expense-report writers return without waiting. The model does not represent a failure of those writes.

## Model

| member | source | states |
|---|---|---|
| FacturaNomina.InvoiceNumberParsesBack | src/factura/factura-nomina.service.ts:65 | The invoice number is `NOM-` followed by the id left-padded with zeros. The digits after the prefix parse back to the id. Ids below 10^8 give exactly 12 characters. |
| FacturaNomina.InvoiceNumberInjective | src/factura/factura-nomina.service.ts:29 | Two payments get the same invoice number exactly when they are the same payment. This holds on the short-circuit path and on the issuing path. |
| FacturaNomina.Tier | src/factura/factura-nomina.service.ts:220-228 | Tier A holds iff the amount is ≤ 1000. Tier B holds iff 1000 < amount ≤ 5000. Tier C holds iff the amount is > 5000. So the tiers are exhaustive and disjoint. |
| FacturaNomina.LegendIdentifiesTier | src/factura/factura-nomina.service.ts:220-228 | Two amounts get the same legend text iff they fall in the same tier, so the three legends are distinct. |
| FacturaNomina.LegendBoundaries | src/factura/factura-nomina.service.ts:221-223 | 1000 gets legend A, 1000.01 gets B, 5000 gets B, and 5000.01 gets C. |
| FacturaNomina.ControlCode | src/factura/factura-nomina.service.ts:212-215 | The code is the digest's first min(16, length) characters, each upper-cased. A lower-hex digest of at least 16 characters gives exactly 16 upper-hex characters. |
| FacturaNomina.MatchIdFrom | src/factura/factura-nomina.service.ts:245 | When the search for `factura_nomina_(\d+)_` finds a match, the result is the digit run captured at the leftmost matching position, and it is non-empty. When it finds nothing, no position matches. |
| FacturaNomina.FileNameRoundTrip | src/factura/factura-nomina.service.ts:242-248 | A generated invoice name passes the listing filter. Its regex capture is the decimal id, which parses back to the payment id. |
| FacturaNomina.EntryFor | src/factura/factura-nomina.service.ts:243-255 | A listing entry is `GENERADA` with total 0. A name with no regex match gets id 0 and number `NOM-undefined`. Otherwise the id is the captured number, and the number is `NOM-` followed by the capture padded to 8 digits. |
| FacturaNomina.EntryForGeneratedName | src/factura/factura-nomina.service.ts:245-249 | The entry for a generated name carries that payment's id and invoice number. |
| FacturaNomina.KeySoundness | src/factura/factura-nomina.service.ts:278 | A generated name for payment j contains the lookup key `factura_nomina_<k>_` iff j = k. For example, the key of 1 never matches the name of 11. |
| FacturaNomina.ForeignNameNeverMatches | src/factura/factura-nomina.service.ts:278 | Suppose a name has no `f` after its first character and does not start with `f`. Then it contains no invoice lookup key. |
| FacturaNomina.FirstContaining | src/factura/factura-nomina.service.ts:277-281 | The result is the position of the first listed name that contains the key, or none if no name does. |
| FacturaNomina.FindInvoice | src/factura/factura-nomina.service.ts:269-289 | A missing or unreadable directory gives null. Otherwise the result is non-null iff some name contains the key, and it is then the first such name. |
| FacturaNomina.InvoiceFiles | src/factura/factura-nomina.service.ts:242 | The listing keeps exactly the names that start with `factura_nomina_` and end with `.pdf`, each as often as it is listed. |
| FacturaNomina.InvoiceFilesAppend | src/factura/factura-nomina.service.ts:242 | The filter keeps listing order: filtering a concatenation is the concatenation of the filtered parts, and a single name is kept iff it is an invoice file. |
| FacturaNomina.EntriesFor | src/factura/factura-nomina.service.ts:243-244 | There is one entry per file, in order, and the mapping fails iff some file's stat fails. |
| FacturaNomina.ListInvoices | src/factura/factura-nomina.service.ts:233-264 | The result is empty when the directory is missing or unreadable, or when a stat fails. Otherwise it is a permutation of the entries sorted by creation time, newest first. Every entry is a `GENERADA` invoice file with total 0. |
| FacturaNomina.ListInvoicesStable | src/factura/factura-nomina.service.ts:257 | Entries with the same creation time keep their listing order, because the sort is stable. |
| FacturaNomina.ExistingInvoice | src/factura/factura-nomina.service.ts:23-26 | The pre-check finds a file iff a listed name contains the payment's key. The file it finds is the one path lookup returns. |
| FacturaNomina.IssueInvoice | src/factura/factura-nomina.service.ts:18-108 | An unreadable directory is an error. An existing file short-circuits with the payment's number and that file, and nothing is written. An error writes nothing. Otherwise issuing succeeds iff the payment exists and joins to its period and worker. A new invoice's file is `factura_nomina_<id>_<ts>.pdf`, added to the directory, which is created if missing. |
| FacturaNomina.InvoiceSucceeds | src/factura/factura-nomina.service.ts:36-108 | In a consistent ledger, issuing succeeds for every existing payment whenever the directory can be read. |
| FacturaNomina.AlreadyIssuedShortCircuit | src/factura/factura-nomina.service.ts:20-33 | If a listed file matches, the result is the first matching file with the invoice number. Nothing is written, and the result is the same for any ledger. |
| FacturaNomina.IssuedInvoiceContents | src/factura/factura-nomina.service.ts:64-92 | A new invoice has subtotal = total = the payment amount and discount 0. It has one line `Pago de Nómina - <tipo>` with quantity 1, the legend of the amount's tier, and the payment's user. Its QR payload is {NIT, number, ISO date, total, control code}. |
| FacturaNomina.MissingPaymentFails | src/factura/factura-nomina.service.ts:46-48 | A missing payment with no invoice on file is an error, and nothing is written. |
| FacturaNomina.IssueIdempotent | src/factura/factura-nomina.service.ts:20-33 | After an invoice is issued, issuing again at any later time returns the file just written and writes nothing. |
| NominaPdf.GenerateReceipt | src/pdf/pdf.service.ts:17-57 | A missing payment fails with "Pago no encontrado" before any directory or file is touched. The receipt succeeds iff the payment exists, joins to its period and worker, and the directory is not unreadable. On success the receipt is `comprobante_nomina_<id>_<ts>.pdf` in `facturas`, and the directory is created if missing. A broken relation fails after the file has been created, with the error of the first null read (`trabajador` when the period is missing, `nombre` when the worker is). |
| NominaPdf.ReceiptSucceeds | src/pdf/pdf.service.ts:17-142 | In a consistent ledger, a receipt is produced for every existing payment whenever its directory can be written. |
| NominaPdf.ReceiptContents | src/pdf/pdf.service.ts:80-113 | "Total Nómina" is the period's `cantidad + extra`. The QR payload is exactly (payment id, worker name, amount, payment date, period id) from the joined rows. |
| NominaPdf.ReceiptNeverMatchesInvoiceKey | src/pdf/pdf.service.ts:46-47 | Receipts share the invoices' directory, but a receipt name never contains any invoice lookup key. |
| NominaPdf.RowStep | src/pdf/pdf.service.ts:199-212 | In the reference layout every row lies at y in [50, 700]. The next row moves to a new page at y = 50 exactly when y + 20 exceeds 700; otherwise it goes 20 lower on the same page. |
| NominaPdf.LayoutTable | src/pdf/pdf.service.ts:189-217 | The cursor loop places row i exactly where the closed-form layout puts it: 30 rows on the first page, then 33 per page. Rows are numbered 1..n in input order, and every y lies in [50, 700]. The total is the sum of `cantidad + extra`. The total line sits 20 below the final cursor. |
| NominaPdf.GenerateMonthlyReport | src/pdf/pdf.service.ts:156-240 | The range is MonthStart..MonthEnd and the rows are the periods the query selects, in query order. Without an existing directory the write fails and nothing changes. Otherwise the file is `reporte_nominas_<año>_<mes>_<ts>.pdf`, and the table and total are as in LayoutTable. The total line sits 20 below the default first row when there are no rows, else two row heights below the last row, on the last row's page. |
| NominaPdf.PeriodsInMonth | src/pdf/pdf.service.ts:159-168 | A period is selected iff its date is at or after midnight of the first day and at or before midnight of the last day. Each selected row appears as often as in the query result. |
| NominaPdf.PeriodsInMonthIff | src/pdf/pdf.service.ts:159-168 | For a real month, a period is in the report iff it is dated in that month and not after midnight of the last day. |
| EgresoPdf.GenerateEgreso | src/pagar/pdf.service.ts:10-53 | The voucher `egreso_<id>_<ts>.pdf` is in `egresos`. The directory afterwards is exactly the one left by creating `egresos` if missing and writing that file, and the file is listed there. It shows the payment's amount, date and user, and the worker's name, type (`tipo`) and base salary (`sueldo`). |
| EgresoPdf.EgresoNamesDistinct | src/pagar/pdf.service.ts:13 | Vouchers written in the same millisecond share a name iff they are for the same payment. |
| EgresoPdf.RowName | src/pagar/pdf.service.ts:83 | The row shows the worker's name, or `N/A` when the period or worker is missing or the name is empty. |
| EgresoPdf.RowNumberReadsBack | src/pagar/pdf.service.ts:81-84 | Row i starts with the decimal i+1 followed by `. `, and that number parses back to i+1. |
| EgresoPdf.RowTexts | src/pagar/pdf.service.ts:81-84 | There is one line per payment, in input order, each in the `<n>. <name> - $<amount> - <date>` form. |
| EgresoPdf.GeneralReport | src/pagar/pdf.service.ts:55-93 | The file is `reporte_egresos_<ts>.pdf`. The printed count is the number of payments and the printed total is the sum of `monto`. There is one row per payment. |
| EgresoPdf.MonthName | src/pagar/pdf.service.ts:108-112 | The month name is `meses[mes-1]` for 1..12, and `undefined` exactly outside that range. |
| EgresoPdf.MonthNamesDistinct | src/pagar/pdf.service.ts:108-109 | Different months have different names. |
| EgresoPdf.MonthlyReport | src/pagar/pdf.service.ts:95-141 | The file is `reporte_mensual_<mes>_<anio>_<ts>.pdf`, titled with the month name and year. The count and total are over the given payments. An empty month prints only "No hay pagos registrados en este mes."; otherwise there is one row per payment. |
| EgresoPdf.MonthlyTableIsGeneralTable | src/pagar/pdf.service.ts:124-130 | For a non-empty month, the rows, count and total are those of the general report over the same payments. |
| PagoService.Configure | src/pago/pago.service.ts:15-20 | The service starts iff the Stripe secret key is set and non-empty, and then uses that key. Otherwise it fails with a configuration error, "Configuración de Stripe faltante". |
| PagoService.RecordedUser | src/pago/pago.service.ts:60 | `is_user` is the caller's user id, or `unknown` when it is missing or empty. |
| PagoService.BuildSessionRequest | src/pago/pago.service.ts:67-94 | The session carries the amount and the metadata (`pago_id`, `nomina_id`, `trabajador_id` of the new record, `tipo` = `pago_nomina`). |
| PagoService.CrearSesion | src/pago/pago.service.ts:31-124 | A missing worker or period is an error, and nothing is stored. Otherwise one row is stored with the given period, amount and user at the next id, before Stripe is called. The call succeeds iff Stripe does. The result names the new id, the amount and the worker. |
| PagoService.CrearSesionPreserves | src/pago/pago.service.ts:50-62 | Creation keeps the ledger consistent. It adds at most one payment, at the fresh id, with the given period and amount, and leaves every other row unchanged. |
| PagoService.Completed | src/pago/pago.service.ts:139-145 | Confirmation sets the status to `COMPLETADO`, the confirmation date, and the reference to the session id. Period, amount, date and user are unchanged. |
| PagoService.ConfirmarPago | src/pago/pago.service.ts:129-174 | A session that is not "paid", or a failed retrieval, is an error with no update and no invoice. A missing row is an error. Otherwise the row is updated and the confirmation succeeds. It carries an invoice iff invoice issuing succeeds, and that invoice is exactly the one issuing returned. The directory is the one issuing leaves. |
| PagoService.ConfirmationStands | src/pago/pago.service.ts:139-151 | A paid session for an existing row is always confirmed. The confirmation changes only that row, which is `COMPLETADO` with the session reference and the same amount. The ledger stays consistent. |
| PagoService.InvoiceFailureDoesNotRollBack | src/pago/pago.service.ts:164-167 | When the invoice cannot be produced, the payment is still confirmed and returned without an invoice. |
| PagoService.ConfirmTwiceIssuesOnce | src/pago/pago.service.ts:156-163 | With no invoice on file and a readable directory, the first confirmation of an existing payment in a consistent ledger issues the invoice. A second confirmation finds that invoice and writes no new file. |
| PagarService.BuildIntentRequest | src/pagar/pagar.service.ts:30-40 | The payment intent carries the amount and the metadata (period id, user id, name and role). |
| PagarService.NewPayment | src/pagar/pagar.service.ts:45-51 | A new row has `nominaId` and `monto` from the data, `is_user` set to the user's id, and the current time. Status, confirmation date and reference are empty. |
| PagarService.VoucherFor | src/pagar/pagar.service.ts:55-64 | The voucher path is empty exactly when the period or its worker is missing. Otherwise the voucher is written for the payment. |
| PagarService.Create | src/pagar/pagar.service.ts:25-79 | With Stripe enabled (a key that is set, non-empty and not the placeholder), a Stripe failure stores nothing. An unknown period is a constraint error, and nothing is stored. Otherwise one row is stored at the next id. The client secret is null without Stripe, or when the intent's secret is missing or empty. The voucher is missing iff the period's worker is missing. When written, the voucher `egreso_<id>_<ts>.pdf` is added to the directory and its path returned. |
| PagarService.CreatePreserves | src/pagar/pagar.service.ts:45-51 | Creating a payment keeps the ledger consistent and changes no existing row. |
| PagarService.Confirmed | src/pagar/pagar.service.ts:93-98 | This confirmation sets only the status `COMPLETADO` and the confirmation date. The reference and all other fields are unchanged. |
| PagarService.ConfirmarPago | src/pagar/pagar.service.ts:81-123 | A missing row is an error with no change. Otherwise only that row is updated and the joined row is returned. A voucher is written iff the row's period and worker exist. The directory afterwards and the returned path are those of writing that voucher: `egreso_<id>_<ts>.pdf` in `egresos`. |
| PagarService.ConfirmTwice | src/pagar/pagar.service.ts:93-98 | Confirming twice leaves the row `COMPLETADO`; only the confirmation date moves. |
| PagarService.ReporteEgresos | src/pagar/pagar.service.ts:125-145 | `totalPagos` is the number of payments and `montoTotal` the sum of `monto`. Both match what the document prints. |
| PagarService.PaymentsInMonth | src/pagar/pagar.service.ts:149-157 | A payment is selected iff its `fecha` is at or after midnight of the first day and at or before midnight of the last day. Each selected payment appears as often as in the query result. |
| PagarService.PaymentsInMonthOrder | src/pagar/pagar.service.ts:149-157 | The selection keeps query order: selecting from a concatenation concatenates the selections. |
| PagarService.ReporteMensual | src/pagar/pagar.service.ts:147-178 | The result echoes `mes` and `anio`. Its count and total are over the payments the query selects, and it names the monthly document. |
| PagarService.MonthlyCountsAsWritten | src/pagar/pagar.service.ts:149-157 | For a real month, a payment is counted iff it is dated in that month and was not made after midnight of the last day. |
| PagarService.ReportDropsLastDayPayment | src/pagar/pagar.service.ts:149-157 | A payment made at 10:00 on 31 January 2024 is not selected for January 2024. |
| PagoController.StatusKey | src/pago/pago.controller.ts:47 | A missing or empty status is counted as `SIN_ESTADO`; any other status is counted as itself. |
| PagoController.ExampleOf | src/pago/pago.controller.ts:50-55 | The example shows the payment's id, amount and date, and the worker's name or `No disponible`. |
| PagoController.FirstIndex | src/pago/pago.controller.ts:48-56 | This is the reference for the example: the first position with a given status, or none. |
| PagoController.EstadosPagos | src/pago/pago.controller.ts:39-41 | `totalPagos` is the number of payments. |
| PagoController.TallyCorrect | src/pago/pago.controller.ts:46-58 | The fold gives one entry per status present, with distinct keys and each count equal to that status's count. Each example is that status's first payment, and the counts add up to the number of payments. |
| PagoController.EstadosPagosCorrect | src/pago/pago.controller.ts:37-62 | The counts sum to `totalPagos`. Every payment's status has an entry and every count is ≥ 1. Each example is the first payment in list order with its status. |
| PagarController.Resolve | src/pagar/pagar.controller.ts:16-20 | A field is the non-empty header, else the truthy body value, else the default. The result is always truthy. |
| PagarController.ResolveUser | src/pagar/pagar.controller.ts:16-20 | id, nombre and rol come from `x-user-id`/`x-user-nombre`/`x-user-rol`, then `body.user`, then `1`/`Usuario Test`/`admin`. |
| PagarController.DefaultUser | src/pagar/pagar.controller.ts:17-19 | With no headers and no `user` in the body, the user is (`1`, `Usuario Test`, `admin`). |
| PagarController.StripUser | src/pagar/pagar.controller.ts:23 | The forwarded data has no `user` key. Every other key is kept with its value, and no key is added. |
| PagarController.StripUserRoundTrip | src/pagar/pagar.controller.ts:23-25 | Putting `user` back restores the body. A body without `user` is forwarded unchanged. |
| PagarController.ConfirmArgument | src/pagar/pagar.controller.ts:28-31 | The service receives `body.pagoId`, or undefined when it is absent. |
| PagarController.ConfirmIgnoresPath | src/pagar/pagar.controller.ts:28-30 | The argument does not depend on the `:id` path parameter. |
| NominaController.NormalizeIsUser | src/nomina/nomina.controller.ts:16-18 | The keys are unchanged and every field other than `is_user` is untouched. A string `is_user` is kept. Any other defined value becomes its `String()` form. An absent `is_user` stays absent. |
| NominaController.NormalizeIdempotent | src/nomina/nomina.controller.ts:16-18 | Normalising twice is the same as normalising once. |
| NominaController.NormalizeExamples | src/nomina/nomina.controller.ts:17 | 7 becomes "7", null becomes "null", and true becomes "true". |
| TrabajadorService.StringField | src/trabajador/trabajador.service.ts:35-39 | An absent field is left out. A string is taken. Any other value is a validation error. |
| TrabajadorService.NumberField | src/trabajador/trabajador.service.ts:35-39 | An absent `sueldo` is left out. A number is taken. Any other value is a validation error. |
| TrabajadorService.Whitelist | src/trabajador/trabajador.service.ts:48-52 | The patch holds exactly the three fields, and it fails iff one of them has the wrong type. |
| TrabajadorService.WhitelistIgnoresOtherKeys | src/trabajador/trabajador.service.ts:35-39 | Bodies that agree on `nombre`, `sueldo` and `tipo` give the same patch, whatever other keys they carry. |
| TrabajadorService.ApplyPatch | src/trabajador/trabajador.service.ts:54-57 | Each defined field replaces the worker's; each undefined field keeps it. |
| TrabajadorService.Create | src/trabajador/trabajador.service.ts:33-44 | Creation succeeds iff all three fields are present and well-typed. The new worker gets the next id; on error nothing changes. |
| TrabajadorService.CreatePreserves | src/trabajador/trabajador.service.ts:41-43 | Creating a worker keeps the ledger consistent and leaves existing rows unchanged. |
| TrabajadorService.Update | src/trabajador/trabajador.service.ts:46-58 | A missing worker or a mistyped field is an error with no change. Otherwise the patch is applied to that worker only. |
| TrabajadorService.UpdatePreserves | src/trabajador/trabajador.service.ts:54-57 | Update keeps the ledger consistent and changes no other worker. A body with none of the three fields changes nothing. |
| TrabajadorService.Remove | src/trabajador/trabajador.service.ts:60-74 | Removal succeeds iff the worker exists and has no periods. It then deletes exactly that worker; otherwise nothing changes. |
| TrabajadorService.RemovePreserves | src/trabajador/trabajador.service.ts:67-73 | Removal never leaves a period that points at a missing worker. |
| TrabajadorService.RemoveRefusedWithPeriod | src/trabajador/trabajador.service.ts:67-68 | A worker with a period is refused, and the store is unchanged. |
| Calendar.MonthRange | src/pdf/pdf.service.ts:159-160 | For months 1..12 and four-digit years, the range starts on day 1 of `mes` and ends on its last day (day 0 of the next month). In every case the day after the end is the next month's first day. |
| Calendar.DayZero | src/pdf/pdf.service.ts:160 | `new Date(y, m, 0)` is the valid date just before day 1 of month index m. |
| Calendar.FirstOfMonth | src/pdf/pdf.service.ts:159 | `new Date(y, m - 1, 1)` is a valid first-of-month, and for an index in 0..11 it is day 1 of month m. |
| Calendar.FirstOfMonthCarry | src/pdf/pdf.service.ts:160 | A month index 12 higher gives the same month one year later. Index 12 gives January of the next year, which is what the range end for December relies on. |
| Calendar.LastDayExcludedAsWritten | src/pagar/pagar.service.ts:149-157 | The range as written leaves a payment made at 10:00 on 31 January 2024 out of January 2024. |
| Calendar.InMonthAsWrittenIff | src/pagar/pagar.service.ts:149-157 | For a real month, the range as written holds iff the instant is in that month and not on its last day after midnight. |
| Calendar.InMonthIff | src/pagar/pagar.service.ts:149-157 | The corrected filter holds iff the instant's date is in that month and year. |
| Calendar.AsWrittenMissesLastDay | src/pagar/pagar.service.ts:149-157 | The filter as written is contained in the corrected one. The two differ exactly on the last day, after midnight. |
| Ledger.ConsistentJoinsComplete | src/pagar/pagar.service.ts:82-86 | In a consistent ledger every payment joins to its period and that period's worker. |
| Text.PadStart | src/factura/factura-nomina.service.ts:65 | `padStart` gives length max(|s|, width) and ends with s. Everything before s is fill. |
| Text.ParseNatToString | src/factura/factura-nomina.service.ts:248 | `parseInt` of the decimal rendering gives the number back. |
| Sorting.SortDescStable | src/factura/factura-nomina.service.ts:257 | The sort by descending key is a permutation, and elements with equal keys keep their input order. |

## Left out

- PDFKit drawing: fonts, coordinates other than the payroll table's y-cursor, rectangles and images. Only the text content and the cursor are modelled.
- QR image encoding: only the payload record is modelled.
- SHA-256: the digest is a parameter `string -> string`, and only the shape of the control code is stated.
- The clock: `Date.now()` and `new Date()` come from one `Clock` value per call, although the source reads the clock up to three times per invoice.
- Time zones: an instant is a local calendar date plus milliseconds since local midnight.
- Floating point: amounts are `real`. `toFixed(2)`, `String(number)` and `toLocaleDateString` are parameters in a `Formats` record.
- `Math.round(monto * 100)`: the cents conversion for Stripe is left out, and the request carries the amount.
- Prisma queries: the tables are maps. An `orderBy` is left to the caller, and the report functions take rows in the order the query returns them.
- Prisma's schema is not part of this model. The row `fecha` defaults to the current time, and the status of a new row is modelled as empty.
- Listing order: a new file is listed after the existing ones.
- Stream errors of the non-awaited writers (invoice, voucher, expense reports) are not modelled: Node may raise them later as uncaught errors, outside the request. Writing into an unreadable directory leaves it unchanged.
- Stripe: session creation and retrieval, and intent creation, are parameters returning a result.
- `parseInt` beyond 2^53, and non-integer or NaN values of `mes`/`anio`/`id` produced by `+x` or `parseInt`: all are unbounded integers here.
- JavaScript objects: prototype keys such as `constructor` in the status fold are not modelled, nor is integer-like key ordering. The statistics are one list in first-seen order.
- The controllers' HTTP handling, response piping and logging are left out.
- `findAll`/`findOne`/`obtenerPagos` plain reads are left out.
- src/main.ts, the module wiring, src/nomina/nomina.service.ts and src/trabajador/trabajador.controller.ts are not part of this model.
- Prisma's validation of a worker body is modelled only as a type check on `nombre`, `sueldo` and `tipo` (string, number, string). A missing worker in update or delete surfaces as a not-found error.
- Concurrency: requests are treated one at a time. Two saves racing for the same payment are not modelled.
- PagarController.ResolveUser: body values are kept as JSON values. The service model takes an already typed `User`, so a non-string body id is not carried into the payment row.
- PagarService.Create and PagarService.ConfirmarPago take `nominaId`, `monto` and `pagoId` as typed numbers. The controller forwards the request values untyped, so a missing, string or fractional value fails inside Prisma. That validation failure is not modelled.
- PagoService.CrearSesion takes `trabajadorId`, `nominaId` and `monto` as typed numbers. The controller forwards these body values untyped (src/pago/pago.controller.ts:16-21), so a missing or string id fails inside Prisma's `findUnique`, and a string `monto` fails when the row is created, before Stripe is called. That validation failure is not modelled.
- NominaPdf.GenerateReceipt: an unwritable directory is modelled as an error result with nothing written. In the source the stream's `error` listener is attached only after the QR code is awaited, so an open failure may instead surface as an uncaught stream error, depending on timing.

## Findings

| source | as written | input that shows it | evidently intended | confidence | as-written member | corrected member |
|---|---|---|---|---|---|---|
| src/pagar/pagar.service.ts:149-157 | The month's upper bound is `new Date(anio, mes, 0)`, midnight at the start of the last day, compared with `lte`. The same bound is used in src/pdf/pdf.service.ts:159-168 (NominaPdf.PeriodsInMonth). | A payment at 10:00 on 31 January 2024, in the report for mes = 1, anio = 2024. | Every instant of the last day belongs to the month. | not executed | PagarService.ReporteMensual over PagarService.PaymentsInMonth (Calendar.InMonthAsWritten), with PagarService.ReportDropsLastDayPayment and Calendar.LastDayExcludedAsWritten | PagarService.ReporteMensualCorrected over PagarService.PaymentsInMonthCorrected (Calendar.InMonth), with PagarService.MonthlyCountsWholeMonth and Calendar.InMonthIff |

=== FILE: calendar.dfy ===
/** Calendar dates and instants as the reports use them: JavaScript's
    `new Date(year, monthIndex, day)` with its month overflow and day-0
    rules, and the comparison the ORM applies to `gte`/`lte` filters.
    Time zones are not modelled: every date is read in one zone. */
module Calendar {

  datatype Date = Date(year: int, month: nat, day: nat)

  predicate IsLeapYear(y: int) {
    (y % 4 == 0 && y % 100 != 0) || y % 400 == 0
  }

  function DaysInMonth(y: int, m: int): (n: int)
    requires 1 <= m <= 12
    ensures 28 <= n <= 31
    ensures m == 2 ==> (n == 29 <==> IsLeapYear(y))
  {
    if m == 2 then (if IsLeapYear(y) then 29 else 28)
    else if m == 4 || m == 6 || m == 9 || m == 11 then 30
    else 31
  }

  predicate Valid(d: Date) {
    1 <= d.month <= 12 && 1 <= d.day <= DaysInMonth(d.year, d.month)
  }

  /** Strict chronological order of dates. */
  predicate Before(a: Date, b: Date) {
    a.year < b.year
    || (a.year == b.year && a.month < b.month)
    || (a.year == b.year && a.month == b.month && a.day < b.day)
  }

  predicate AtOrBefore(a: Date, b: Date) {
    a == b || Before(a, b)
  }

  function NextDay(d: Date): (e: Date)
    requires Valid(d)
    ensures Valid(e) && Before(d, e)
  {
    if d.day < DaysInMonth(d.year, d.month) then Date(d.year, d.month, d.day + 1)
    else if d.month < 12 then Date(d.year, d.month + 1, 1)
    else Date(d.year + 1, 1, 1)
  }

  function PrevDay(d: Date): (e: Date)
    requires Valid(d)
    ensures Valid(e) && NextDay(e) == d
  {
    if d.day > 1 then Date(d.year, d.month, d.day - 1)
    else if d.month > 1 then Date(d.year, d.month - 1, DaysInMonth(d.year, d.month - 1))
    else Date(d.year - 1, 12, 31)
  }

  /** The Date constructor reads a year argument 0..99 as 1900..1999. */
  function FullYear(y: int): int {
    if 0 <= y <= 99 then 1900 + y else y
  }

  /** `new Date(y, monthIndex, 1)`: a month index outside 0..11 carries into
      the year (floor division, as in the MakeDay algorithm). */
  function FirstOfMonth(y: int, monthIndex: int): (d: Date)
    ensures Valid(d) && d.day == 1
    ensures 0 <= monthIndex < 12 ==> d == Date(FullYear(y), monthIndex + 1, 1)
  {
    Date(FullYear(y) + monthIndex / 12, monthIndex % 12 + 1, 1)
  }

  /** Month overflow: index 12 more lands in the same month of the next
      year, and index 12 (`new Date(y, 12, 1)`) is January of the next year. */
  lemma FirstOfMonthCarry(y: int, monthIndex: int)
    ensures FirstOfMonth(y, monthIndex + 12)
         == Date(FirstOfMonth(y, monthIndex).year + 1, FirstOfMonth(y, monthIndex).month, 1)
    ensures FirstOfMonth(y, 12) == Date(FullYear(y) + 1, 1, 1)
  {
    assert (monthIndex + 12) / 12 == monthIndex / 12 + 1;
    assert (monthIndex + 12) % 12 == monthIndex % 12;
  }

  /** `new Date(y, monthIndex, 0)`: the day before day 1 of that month. */
  function DayZero(y: int, monthIndex: int): (d: Date)
    ensures Valid(d) && NextDay(d) == FirstOfMonth(y, monthIndex)
  {
    PrevDay(FirstOfMonth(y, monthIndex))
  }

  /** First day of the reporting range: `new Date(year, mes - 1, 1)`. */
  function MonthStart(mes: int, year: int): Date {
    FirstOfMonth(year, mes - 1)
  }

  /** Last day of the reporting range: `new Date(year, mes, 0)`. */
  function MonthEnd(mes: int, year: int): Date {
    DayZero(year, mes)
  }

  /** For a month 1..12 and a four-digit year the range covers exactly that
      month, from day 1 to its last day; in every case the day after the end
      is the first day of the following month. */
  lemma MonthRange(mes: int, year: int)
    ensures NextDay(MonthEnd(mes, year)) == MonthStart(mes + 1, year)
    ensures 1 <= mes <= 12 && !(0 <= year <= 99) ==>
      MonthStart(mes, year) == Date(year, mes, 1)
      && MonthEnd(mes, year) == Date(year, mes, DaysInMonth(year, mes))
  {
  }

  const MsPerDay: int := 86400000

  /** A point in time: a calendar date and the milliseconds since its midnight. */
  datatype Instant = Instant(date: Date, ms: int)

  predicate ValidInstant(t: Instant) {
    Valid(t.date) && 0 <= t.ms < MsPerDay
  }

  predicate InstantAtOrBefore(a: Instant, b: Instant) {
    Before(a.date, b.date) || (a.date == b.date && a.ms <= b.ms)
  }

  /** The value `new Date(y, m, d)` denotes: midnight of that day. */
  function Midnight(d: Date): Instant {
    Instant(d, 0)
  }

  /** The range filter as written: `fecha >= new Date(y, mes - 1, 1)` and
      `fecha <= new Date(y, mes, 0)`. The upper bound is midnight at the
      START of the last day. */
  predicate InMonthAsWritten(t: Instant, mes: int, year: int) {
    InstantAtOrBefore(Midnight(MonthStart(mes, year)), t)
    && InstantAtOrBefore(t, Midnight(MonthEnd(mes, year)))
  }

  /** A payment made on 31 January 2024 at 10:00 is left out of January's
      report by the filter as written, although it falls in January. */
  lemma LastDayExcludedAsWritten()
    ensures var t := Instant(Date(2024, 1, 31), 36000000);
      ValidInstant(t) && t.date.year == 2024 && t.date.month == 1
      && !InMonthAsWritten(t, 1, 2024)
  {
  }

  /** The evidently intended filter: every instant of every day from the
      first to the last day of the month. */
  predicate InMonth(t: Instant, mes: int, year: int) {
    AtOrBefore(MonthStart(mes, year), t.date) && AtOrBefore(t.date, MonthEnd(mes, year))
  }

  /** The corrected filter selects exactly the instants of that month. */
  lemma InMonthIff(t: Instant, mes: int, year: int)
    requires ValidInstant(t)
    requires 1 <= mes <= 12 && !(0 <= year <= 99)
    ensures InMonth(t, mes, year) <==> t.date.year == year && t.date.month == mes
  {
    MonthRange(mes, year);
  }

  /** The filter as written, for a real month: the instants of that month
      except those on its last day after midnight. */
  lemma InMonthAsWrittenIff(t: Instant, mes: int, year: int)
    requires ValidInstant(t)
    requires 1 <= mes <= 12 && !(0 <= year <= 99)
    ensures InMonthAsWritten(t, mes, year) <==>
      && t.date.year == year && t.date.month == mes
      && !(t.date.day == DaysInMonth(year, mes) && t.ms > 0)
  {
    InMonthIff(t, mes, year);
    AsWrittenMissesLastDay(t, mes, year);
    MonthRange(mes, year);
  }

  /** The two filters differ exactly on the last day after its first millisecond. */
  lemma AsWrittenMissesLastDay(t: Instant, mes: int, year: int)
    requires ValidInstant(t)
    ensures InMonthAsWritten(t, mes, year) ==> InMonth(t, mes, year)
    ensures InMonth(t, mes, year) && !InMonthAsWritten(t, mes, year)
      <==> t.date == MonthEnd(mes, year) && t.ms > 0
  {
  }
}

=== FILE: docstore.dfy ===
/** The document store: a directory whose listing is the only index of the
    generated files. A write is `mkdirSync(dir, { recursive: true })` when the
    directory is missing, then a new file. */
module DocStore {

  /** State of one directory: missing, present but unreadable, or present with
      its entries in listing order. */
  datatype Dir = Absent | Unreadable | Present(files: seq<string>)

  /** `path.join(process.cwd(), folder, file)`, with the working directory left out. */
  datatype DocPath = DocPath(folder: string, file: string)

  /** Creates the directory if needed and adds `file` to it. A new entry is
      listed after the existing ones. Writing into an unreadable directory
      leaves it unchanged: the stream error is reported asynchronously and
      these call sites never observe it. */
  function CreateAndWrite(d: Dir, file: string): (r: Dir)
    ensures d.Absent? ==> r == Present([file])
    ensures d.Present? ==> r == Present(d.files + [file])
    ensures d.Unreadable? ==> r == d
  {
    match d
    case Absent => Present([file])
    case Unreadable => d
    case Present(fs) => Present(fs + [file])
  }
}

=== FILE: egresos.dfy ===
/** Expense documents of the `pagar` module (`PdfService` there): the
    expense voucher of one payment and the general and monthly expense
    reports. These writers never wait for the stream, so a failed write is
    not observed: each returns the path it meant to write. */
module EgresoPdf {
  import opened Wrappers
  import opened Text
  import opened Calendar
  import opened Ledger
  import opened DocStore
  import opened Seqs
  import opened Formats

  const EgresoFolder: string := "egresos"

  function EgresoFileName(pagoId: nat, epochMs: nat): string {
    "egreso_" + NatToString(pagoId) + "_" + NatToString(epochMs) + ".pdf"
  }

  /** The data printed on an expense voucher. */
  datatype Egreso = Egreso(
    path: DocPath,
    pagoId: nat,
    empleado: string,
    tipo: string,
    sueldoBase: real,
    montoPagado: real,
    fecha: Instant,
    procesadoPor: string)

  /** `generarEgresoPDF(pago, trabajador)`: creates the directory when it is
      missing and adds the voucher file. The voucher shows the payment's own
      date (`fecha`), not its confirmation date. */
  function GenerateEgreso(d: Dir, pagoId: nat, pago: Payment, trabajador: Worker, epochMs: nat): (r: (Dir, Egreso))
    ensures r.0 == CreateAndWrite(d, EgresoFileName(pagoId, epochMs))
    ensures !d.Unreadable? ==> r.0.Present? && EgresoFileName(pagoId, epochMs) in r.0.files
    ensures d.Present? ==> r.0 == Present(d.files + [EgresoFileName(pagoId, epochMs)])
    ensures r.1.path == DocPath(EgresoFolder, EgresoFileName(pagoId, epochMs))
    ensures r.1.pagoId == pagoId && r.1.empleado == trabajador.nombre && r.1.montoPagado == pago.monto
    ensures r.1.fecha == pago.fecha && r.1.procesadoPor == pago.isUser
    ensures r.1.tipo == trabajador.tipo && r.1.sueldoBase == trabajador.sueldo
  {
    var file := EgresoFileName(pagoId, epochMs);
    (CreateAndWrite(d, file),
     Egreso(DocPath(EgresoFolder, file), pagoId, trabajador.nombre, trabajador.tipo, trabajador.sueldo,
            pago.monto, pago.fecha, pago.isUser))
  }

  /** Voucher names carry the payment id: vouchers written at the same
      millisecond share a name exactly when they are for the same payment. */
  lemma EgresoNamesDistinct(a: nat, b: nat, epochMs: nat)
    ensures EgresoFileName(a, epochMs) == EgresoFileName(b, epochMs) <==> a == b
  {
    var sa, sb := NatToString(a), NatToString(b);
    var tail := NatToString(epochMs) + ".pdf";
    var s := EgresoFileName(a, epochMs);
    if s == EgresoFileName(b, epochMs) {
      var t := s[7..];
      assert t == sa + "_" + tail;
      assert t == sb + "_" + tail;
      assert StartsWith(t, sa + "_") by { assert t[..|sa| + 1] == sa + "_"; }
      assert StartsWith(t, sb + "_") by { assert t[..|sb| + 1] == sb + "_"; }
      DigitFieldPrefix(sa, sb, t);
      NatToStringInjective(a, b);
    }
  }

  // ---------------------------------------------------------------------
  // Report rows

  /** `pago.nomina?.trabajador?.nombre || 'N/A'`: a missing relation or an
      empty name prints as N/A. */
  function RowName(v: PaymentView): (s: string)
    ensures s != ""
    ensures (v.nomina.Some? && v.nomina.value.trabajador.Some? && v.nomina.value.trabajador.value.nombre != "")
      ==> s == v.nomina.value.trabajador.value.nombre
    ensures (v.nomina.None? || v.nomina.value.trabajador.None? || v.nomina.value.trabajador.value.nombre == "")
      ==> s == "N/A"
  {
    if v.nomina.Some? && v.nomina.value.trabajador.Some? && v.nomina.value.trabajador.value.nombre != ""
    then v.nomina.value.trabajador.value.nombre
    else "N/A"
  }

  /** One table line: `<n>. <name> - $<amount> - <date>`, numbered from 1. */
  function RowText(i: nat, v: PaymentView, fmt: Formats): string {
    NatToString(i + 1) + ". " + RowName(v) + " - $" + fmt.number(v.pago.monto) + " - " + fmt.localeDate(v.pago.fecha.date)
  }

  /** The leading number of a line reads back as its 1-based position. */
  lemma RowNumberReadsBack(i: nat, v: PaymentView, fmt: Formats)
    ensures var t := RowText(i, v, fmt); var n := NatToString(i + 1);
      && |n| + 2 <= |t| && t[..|n|] == n && t[|n|..|n| + 2] == ". "
      && ParseDigits(t[..|n|]) == i + 1
  {
    ParseNatToString(i + 1);
  }

  function RowTexts(pagos: seq<PaymentView>, fmt: Formats): (ts: seq<string>)
    ensures |ts| == |pagos|
    ensures forall i | 0 <= i < |pagos| :: ts[i] == RowText(i, pagos[i], fmt)
  {
    seq(|pagos|, i requires 0 <= i < |pagos| => RowText(i, pagos[i], fmt))
  }

  function Amounts(pagos: seq<PaymentView>): (ms: seq<real>)
    ensures |ms| == |pagos| && forall i | 0 <= i < |pagos| :: ms[i] == pagos[i].pago.monto
  {
    seq(|pagos|, i requires 0 <= i < |pagos| => pagos[i].pago.monto)
  }

  // ---------------------------------------------------------------------
  // Reports

  datatype EgresoReport = EgresoReport(
    path: DocPath,
    title: string,
    generado: Date,
    totalPagos: nat,
    montoTotal: real,
    lines: seq<string>)

  function GeneralReportFileName(epochMs: nat): string {
    "reporte_egresos_" + NatToString(epochMs) + ".pdf"
  }

  /** `generarReporteEgresosPDF(pagos)`: one line per payment in the given
      order, with the count and the summed amount. */
  function GeneralReport(d: Dir, pagos: seq<PaymentView>, clock: Clock, fmt: Formats): (r: (Dir, EgresoReport))
    ensures r.0 == CreateAndWrite(d, GeneralReportFileName(clock.epochMs))
    ensures r.1.path == DocPath(EgresoFolder, GeneralReportFileName(clock.epochMs))
    ensures r.1.totalPagos == |pagos| && r.1.montoTotal == Sum(Amounts(pagos))
    ensures |r.1.lines| == |pagos| && forall i | 0 <= i < |pagos| :: r.1.lines[i] == RowText(i, pagos[i], fmt)
  {
    var file := GeneralReportFileName(clock.epochMs);
    (CreateAndWrite(d, file),
     EgresoReport(DocPath(EgresoFolder, file), "REPORTE GENERAL DE EGRESOS", clock.now.date,
                  |pagos|, Sum(Amounts(pagos)), RowTexts(pagos, fmt)))
  }

  const Meses: seq<string> := ["Enero", "Febrero", "Marzo", "Abril", "Mayo", "Junio",
                               "Julio", "Agosto", "Septiembre", "Octubre", "Noviembre", "Diciembre"]

  /** `meses[mes - 1]`, which is `undefined` outside 1..12. */
  function MonthName(mes: int): (s: string)
    ensures 1 <= mes <= 12 <==> s != "undefined"
    ensures 1 <= mes <= 12 ==> s == Meses[mes - 1]
  {
    if 1 <= mes <= 12 then Meses[mes - 1] else "undefined"
  }

  /** The twelve month names are pairwise different, so the title names the month. */
  lemma MonthNamesDistinct(a: int, b: int)
    requires 1 <= a <= 12 && 1 <= b <= 12 && a != b
    ensures MonthName(a) != MonthName(b)
  {
  }

  function MonthlyReportFileName(mes: int, anio: int, epochMs: nat): string {
    "reporte_mensual_" + IntToString(mes) + "_" + IntToString(anio) + "_" + NatToString(epochMs) + ".pdf"
  }

  const NoPaymentsLine: string := "No hay pagos registrados en este mes."

  /** `generarReporteMensualPDF(pagos, mes, anio)`: the general report's
      table under a month title, or a single notice line when the month has
      no payments. */
  function MonthlyReport(d: Dir, pagos: seq<PaymentView>, mes: int, anio: int, clock: Clock, fmt: Formats): (r: (Dir, EgresoReport))
    ensures r.0 == CreateAndWrite(d, MonthlyReportFileName(mes, anio, clock.epochMs))
    ensures r.1.path == DocPath(EgresoFolder, MonthlyReportFileName(mes, anio, clock.epochMs))
    ensures r.1.title == "REPORTE DE EGRESOS - " + MonthName(mes) + " " + IntToString(anio)
    ensures r.1.totalPagos == |pagos| && r.1.montoTotal == Sum(Amounts(pagos))
    ensures |pagos| == 0 ==> r.1.lines == [NoPaymentsLine]
    ensures |pagos| > 0 ==> |r.1.lines| == |pagos| && forall i | 0 <= i < |pagos| :: r.1.lines[i] == RowText(i, pagos[i], fmt)
  {
    var file := MonthlyReportFileName(mes, anio, clock.epochMs);
    (CreateAndWrite(d, file),
     EgresoReport(DocPath(EgresoFolder, file), "REPORTE DE EGRESOS - " + MonthName(mes) + " " + IntToString(anio),
                  clock.now.date, |pagos|, Sum(Amounts(pagos)),
                  if |pagos| == 0 then [NoPaymentsLine] else RowTexts(pagos, fmt)))
  }

  /** For a month with payments, the monthly report's table and summary are
      those of the general report over the same payments; only the title and
      file name differ. */
  lemma MonthlyTableIsGeneralTable(d: Dir, pagos: seq<PaymentView>, mes: int, anio: int, clock: Clock, fmt: Formats)
    requires |pagos| > 0
    ensures var m := MonthlyReport(d, pagos, mes, anio, clock, fmt).1;
      var g := GeneralReport(d, pagos, clock, fmt).1;
      m.lines == g.lines && m.totalPagos == g.totalPagos && m.montoTotal == g.montoTotal && m.path != g.path
  {
    var m := MonthlyReport(d, pagos, mes, anio, clock, fmt).1;
    var g := GeneralReport(d, pagos, clock, fmt).1;
    assert m.path.file[8] != g.path.file[8];
  }
}

=== FILE: factura.dfy ===
/** Invoice issuing and the invoice document store
    (`FacturaNominaService`): invoice numbering, the control code, the fiscal
    legend, the `factura_nomina_<pagoId>_<ms>.pdf` naming convention, lookup
    by payment id, listing, and issuing with its "already issued"
    short-circuit. */
module FacturaNomina {
  import opened Wrappers
  import opened Text
  import opened Calendar
  import opened Ledger
  import opened DocStore
  import opened Formats
  import Sorting
  import Seqs

  const InvoiceFolder: string := "facturas"
  const InvoicePrefix: string := "factura_nomina_"

  // The issuing company's fiscal identity printed on every invoice.
  const Nit: string := "1234567890123"
  const RazonSocial: string := "CITYLIGHTS NOMINAS S.R.L."
  const NumeroAutorizacion: string := "29040011008"
  const ActividadEconomica: string := "820200 - Actividades de servicios de apoyo administrativo"

  // ---------------------------------------------------------------------
  // Invoice number

  /** `NOM-` followed by the payment id left-padded with zeros to 8 digits. */
  function InvoiceNumber(pagoId: nat): string {
    "NOM-" + PadStart(NatToString(pagoId), 8, '0')
  }

  /** The digits after `NOM-` read back as the payment id; below 10^8 they
      are exactly 8. */
  lemma InvoiceNumberParsesBack(pagoId: nat)
    ensures var n := InvoiceNumber(pagoId);
      StartsWith(n, "NOM-") && AllDigits(n[4..]) && ParseDigits(n[4..]) == pagoId
    ensures pagoId < 100000000 ==> |InvoiceNumber(pagoId)| == 12
  {
    var d := NatToString(pagoId);
    var p := PadStart(d, 8, '0');
    var n := InvoiceNumber(pagoId);
    assert n[4..] == p;
    assert p == p[..|p| - |d|] + d;
    ParseLeadingZeros(p[..|p| - |d|], d);
    ParseNatToString(pagoId);
    if pagoId < 100000000 {
      assert Pow10(8) == 100000000;
      NatToStringLength(pagoId, 8);
    }
  }

  /** Distinct payments get distinct invoice numbers. */
  lemma InvoiceNumberInjective(a: nat, b: nat)
    ensures InvoiceNumber(a) == InvoiceNumber(b) <==> a == b
  {
    InvoiceNumberParsesBack(a);
    InvoiceNumberParsesBack(b);
  }

  // ---------------------------------------------------------------------
  // Fiscal legend

  datatype LegendTier = TierA | TierB | TierC

  /** The amount bracket; the three brackets are disjoint and cover every amount. */
  function Tier(monto: real): (t: LegendTier)
    ensures t == TierA <==> monto <= 1000.0
    ensures t == TierB <==> 1000.0 < monto <= 5000.0
    ensures t == TierC <==> 5000.0 < monto
  {
    if monto <= 1000.0 then TierA else if monto <= 5000.0 then TierB else TierC
  }

  const LegendA: string := "Ley N° 453: Tienes derecho a recibir información sobre las características y contenidos de los servicios que utilices."
  const LegendB: string := "Ley N° 453: Es deber y derecho de todos los ciudadanos el cumplimiento y exigencia del cumplimiento de la Constitución Política del Estado y las leyes de la República."
  const LegendC: string := "Ley N° 453: Para efectos tributarios, verifique que los datos de la factura correspondan con la información de su proveedor."

  function LegendText(t: LegendTier): string {
    match t
    case TierA => LegendA
    case TierB => LegendB
    case TierC => LegendC
  }

  /** The legend printed for an amount. */
  function FiscalLegend(monto: real): string {
    LegendText(Tier(monto))
  }

  /** The printed legend identifies the bracket: the three texts differ. */
  lemma LegendIdentifiesTier(m1: real, m2: real)
    ensures FiscalLegend(m1) == FiscalLegend(m2) <==> Tier(m1) == Tier(m2)
  {
    assert |LegendA| == 118 && |LegendB| == 167 && |LegendC| == 124;
  }

  /** The brackets at their boundaries: 1000 -> A, 1000.01 -> B, 5000 -> B,
      5000.01 -> C. */
  lemma LegendBoundaries()
    ensures Tier(1000.0) == TierA && Tier(1000.01) == TierB
    ensures Tier(5000.0) == TierB && Tier(5000.01) == TierC
  {
  }

  // ---------------------------------------------------------------------
  // Control code

  /** The first 16 characters of the digest of number, NIT, amount (two
      decimals) and the clock reading, upper-cased. `digest` stands for the
      hexadecimal SHA-256. */
  function ControlCode(numeroFactura: string, nit: string, monto: real, epochMs: nat,
                       digest: string -> string, fixed2: real -> string): (code: string)
    ensures var d := digest(numeroFactura + nit + fixed2(monto) + NatToString(epochMs));
      && |code| == (if |d| < 16 then |d| else 16)
      && (forall i | 0 <= i < |code| :: code[i] == UpperChar(d[i]))
      && ((|d| >= 16 && forall i | 0 <= i < |d| :: IsLowerHex(d[i])) ==>
            |code| == 16 && forall i | 0 <= i < 16 :: IsUpperHex(code[i]))
  {
    ToUpper(Take(digest(numeroFactura + nit + fixed2(monto) + NatToString(epochMs)), 16))
  }

  // ---------------------------------------------------------------------
  // File names

  function InvoiceFileName(pagoId: nat, epochMs: nat): string {
    InvoicePrefix + NatToString(pagoId) + "_" + NatToString(epochMs) + ".pdf"
  }

  /** The substring that lookup by payment id searches for. */
  function LookupKey(pagoId: nat): string {
    InvoicePrefix + NatToString(pagoId) + "_"
  }

  /** The listing filter: prefix `factura_nomina_` and suffix `.pdf`. */
  predicate IsInvoiceFile(name: string) {
    StartsWith(name, InvoicePrefix) && EndsWith(name, ".pdf")
  }

  /** End of the run of decimal digits that starts at `j`. */
  function DigitRunEnd(s: string, j: nat): (k: nat)
    requires j <= |s|
    ensures j <= k <= |s|
    ensures forall i | j <= i < k :: IsDigit(s[i])
    ensures k < |s| ==> !IsDigit(s[k])
    decreases |s| - j
  {
    if j < |s| && IsDigit(s[j]) then DigitRunEnd(s, j + 1) else j
  }

  /** Whether `/factura_nomina_(\d+)_/` matches at position `i`. Backtracking
      the greedy `\d+` never helps: a shorter run is followed by a digit, not
      by `_`, so the pattern matches exactly when the whole run is non-empty
      and followed by `_`. */
  predicate MatchesAt(s: string, i: nat) {
    && OccursAt(s, InvoicePrefix, i)
    && var k := DigitRunEnd(s, i + |InvoicePrefix|);
       k > i + |InvoicePrefix| && k < |s| && s[k] == '_'
  }

  /** The capture group of the leftmost match at or after `i`. */
  function MatchIdFrom(s: string, i: nat): (g: Option<string>)
    requires i <= |s|
    ensures g.Some? ==> 1 <= |g.value| && AllDigits(g.value)
    ensures g.None? ==> forall j | i <= j <= |s| :: !MatchesAt(s, j)
    ensures g.Some? ==> exists j | i <= j < |s| ::
      && MatchesAt(s, j)
      && (forall l | i <= l < j :: !MatchesAt(s, l))
      && g.value == s[j + |InvoicePrefix|..DigitRunEnd(s, j + |InvoicePrefix|)]
    decreases |s| - i
  {
    if MatchesAt(s, i) then
      Some(s[i + |InvoicePrefix|..DigitRunEnd(s, i + |InvoicePrefix|)])
    else if i == |s| then None
    else MatchIdFrom(s, i + 1)
  }

  function MatchId(s: string): Option<string> {
    MatchIdFrom(s, 0)
  }

  lemma {:induction false} DigitRunOver(s: string, j: nat, d: string)
    requires AllDigits(d) && j + |d| < |s| && s[j..j + |d|] == d && !IsDigit(s[j + |d|])
    ensures DigitRunEnd(s, j) == j + |d|
    decreases |d|
  {
    if |d| > 0 {
      assert s[j] == d[0];
      assert s[j + 1..j + 1 + |d[1..]|] == d[1..];
      DigitRunOver(s, j + 1, d[1..]);
    }
  }

  /** The pattern captures the digit field that follows the prefix. */
  lemma {:induction false} MatchPrefixedDigits(s: string, d: string, rest: string)
    requires AllDigits(d) && 1 <= |d|
    requires s == InvoicePrefix + d + "_" + rest
    ensures MatchId(s) == Some(d)
  {
    assert s[..|InvoicePrefix|] == InvoicePrefix;
    assert s[15..15 + |d|] == d;
    assert s[15 + |d|] == '_';
    DigitRunOver(s, 15, d);
    assert MatchesAt(s, 0);
  }

  /** A generated name passes the listing filter. */
  lemma GeneratedNameListed(pagoId: nat, epochMs: nat)
    ensures IsInvoiceFile(InvoiceFileName(pagoId, epochMs))
  {
    var s := InvoiceFileName(pagoId, epochMs);
    var d := NatToString(pagoId);
    assert s == InvoicePrefix + (d + "_" + NatToString(epochMs) + ".pdf");
    assert s[..|InvoicePrefix|] == InvoicePrefix;
    assert s == (InvoicePrefix + d + "_" + NatToString(epochMs)) + ".pdf";
    assert s[|s| - 4..] == ".pdf";
  }

  /** A generated name passes the listing filter and the pattern recovers the id. */
  lemma FileNameRoundTrip(pagoId: nat, epochMs: nat)
    ensures IsInvoiceFile(InvoiceFileName(pagoId, epochMs))
    ensures MatchId(InvoiceFileName(pagoId, epochMs)) == Some(NatToString(pagoId))
    ensures ParseDigits(NatToString(pagoId)) == pagoId
  {
    GeneratedNameListed(pagoId, epochMs);
    var s := InvoiceFileName(pagoId, epochMs);
    var d := NatToString(pagoId);
    var rest := NatToString(epochMs) + ".pdf";
    assert s == InvoicePrefix + d + "_" + rest;
    MatchPrefixedDigits(s, d, rest);
    ParseNatToString(pagoId);
  }

  // ---------------------------------------------------------------------
  // Lookup soundness

  /** No `f` strictly between the first and the last character. */
  predicate NoInnerF(s: string) {
    forall i | 0 < i < |s| - 1 :: s[i] != 'f'
  }

  /** In a name with no inner `f`, a lookup key can only occur at the start. */
  lemma KeyOnlyAtStart(s: string, k: nat, p: nat)
    requires NoInnerF(s) && OccursAt(s, LookupKey(k), p)
    ensures p == 0
  {
    var key := LookupKey(k);
    assert s[p] == key[0] == 'f';
  }

  /** A name `<prefix><digits>_<digits>.pdf` has no inner `f` when the
      prefix has none after its first character. */
  lemma ShapeNoInnerF(s: string, prefix: string, d1: string, d2: string)
    requires forall i | 0 < i < |prefix| :: prefix[i] != 'f'
    requires AllDigits(d1) && AllDigits(d2)
    requires s == prefix + d1 + "_" + d2 + ".pdf"
    ensures NoInnerF(s)
  {
    var n := |prefix|;
    forall i | 0 < i < |s| - 1
      ensures s[i] != 'f'
    {
      if i < n {
        assert s[i] == prefix[i];
      } else if i < n + |d1| {
        assert s[i] == d1[i - n];
      } else if i == n + |d1| {
        assert s[i] == '_';
      } else if i < n + 1 + |d1| + |d2| {
        assert s[i] == d2[i - n - 1 - |d1|];
      } else {
        assert s[i] == ".pdf"[i - n - 1 - |d1| - |d2|];
      }
    }
  }

  /** A generated invoice name contains the lookup key of `k` exactly when
      it was generated for payment `k` (so 11 never matches 1). */
  lemma KeySoundness(j: nat, epochMs: nat, k: nat)
    ensures Contains(InvoiceFileName(j, epochMs), LookupKey(k)) <==> j == k
  {
    var dj, dk, dm := NatToString(j), NatToString(k), NatToString(epochMs);
    KeySoundnessShape(InvoiceFileName(j, epochMs), dj, dm, dk);
    NatToStringInjective(j, k);
  }

  /** The same on the generated shape, for any digit fields. */
  lemma KeySoundnessShape(s: string, d1: string, d2: string, dk: string)
    requires AllDigits(d1) && AllDigits(d2) && AllDigits(dk)
    requires s == InvoicePrefix + d1 + "_" + d2 + ".pdf"
    ensures Contains(s, InvoicePrefix + dk + "_") <==> d1 == dk
  {
    var key := InvoicePrefix + dk + "_";
    if d1 == dk {
      assert s == key + (d2 + ".pdf");
      assert s[..|key|] == key;
      assert OccursAt(s, key, 0);
    }
    if Contains(s, key) {
      var p: nat :| p <= |s| && OccursAt(s, key, p);
      ShapeNoInnerF(s, InvoicePrefix, d1, d2);
      KeyAtStartField(s, d1, d2, dk, p);
    }
  }

  lemma KeyAtStartField(s: string, d1: string, d2: string, dk: string, p: nat)
    requires AllDigits(d1) && AllDigits(d2) && AllDigits(dk)
    requires s == InvoicePrefix + d1 + "_" + d2 + ".pdf"
    requires NoInnerF(s) && OccursAt(s, InvoicePrefix + dk + "_", p)
    ensures d1 == dk
  {
    var key := InvoicePrefix + dk + "_";
    assert s[p] == key[0] == 'f';
    assert p == 0;
    var t := s[15..];
    assert s == InvoicePrefix + (d1 + "_" + d2 + ".pdf");
    assert t == d1 + "_" + (d2 + ".pdf");
    assert StartsWith(t, d1 + "_");
    assert key == InvoicePrefix + (dk + "_");
    assert s[..|key|] == key;
    assert t[..|dk| + 1] == key[15..] == dk + "_";
    DigitFieldPrefix(d1, dk, t);
  }

  /** A name with no `f` anywhere but possibly its last character (receipts,
      reports) never matches any invoice lookup key. */
  lemma ForeignNameNeverMatches(s: string, k: nat)
    requires NoInnerF(s) && |s| > 0 && s[0] != 'f'
    ensures !Contains(s, LookupKey(k))
  {
    if Contains(s, LookupKey(k)) {
      var p: nat :| p <= |s| && OccursAt(s, LookupKey(k), p);
      KeyOnlyAtStart(s, k, p);
    }
  }

  // ---------------------------------------------------------------------
  // Lookup by payment id

  /** Index of the first entry that contains `key`. */
  function FirstContaining(files: seq<string>, key: string): (r: Option<nat>)
    ensures r.Some? ==> r.value < |files| && Contains(files[r.value], key)
    ensures r.Some? ==> forall j | 0 <= j < r.value :: !Contains(files[j], key)
    ensures r.None? ==> forall j | 0 <= j < |files| :: !Contains(files[j], key)
  {
    if |files| == 0 then None
    else if Contains(files[0], key) then Some(0)
    else
      var r := FirstContaining(files[1..], key);
      if r.Some? then Some(r.value + 1) else None
  }

  /** `obtenerRutaFacturaPorPago`: the first listed entry containing
      `factura_nomina_<pagoId>_`; nothing when the directory is missing or
      unreadable, or when no entry matches. */
  function FindInvoice(d: Dir, pagoId: nat): (r: Option<DocPath>)
    ensures !d.Present? ==> r.None?
    ensures d.Present? ==>
      (r.Some? <==> exists i | 0 <= i < |d.files| :: Contains(d.files[i], LookupKey(pagoId)))
    ensures r.Some? ==> exists i | 0 <= i < |d.files| ::
      && r.value == DocPath(InvoiceFolder, d.files[i])
      && Contains(d.files[i], LookupKey(pagoId))
      && forall j | 0 <= j < i :: !Contains(d.files[j], LookupKey(pagoId))
  {
    if !d.Present? then None
    else
      var i := FirstContaining(d.files, LookupKey(pagoId));
      if i.Some? then Some(DocPath(InvoiceFolder, d.files[i.value])) else None
  }

  // ---------------------------------------------------------------------
  // Listing

  datatype InvoiceEntry = InvoiceEntry(
    id: nat,
    numeroFactura: string,
    archivo: string,
    fechaCreacion: nat,      // birth time of the file, epoch milliseconds
    trabajadorNombre: string,
    total: real,
    estado: string)

  function CreatedAt(e: InvoiceEntry): int {
    e.fechaCreacion
  }

  /** The entry listed for one file: id and number come from the pattern
      match; with no match the id is 0 and the number reads `NOM-undefined`. */
  function EntryFor(file: string, birth: nat): (e: InvoiceEntry)
    ensures e.archivo == file && e.fechaCreacion == birth
    ensures e.estado == "GENERADA" && e.total == 0.0 && e.trabajadorNombre == "Ver archivo PDF"
    ensures MatchId(file).None? ==> e.id == 0 && e.numeroFactura == "NOM-undefined"
    ensures MatchId(file).Some? ==> e.id == ParseDigits(MatchId(file).value)
    ensures MatchId(file).Some? ==> e.numeroFactura == "NOM-" + PadStart(MatchId(file).value, 8, '0')
  {
    var g := MatchId(file);
    InvoiceEntry(
      if g.Some? then ParseDigits(g.value) else 0,
      if g.Some? then "NOM-" + PadStart(g.value, 8, '0') else "NOM-undefined",
      file, birth, "Ver archivo PDF", 0.0, "GENERADA")
  }

  /** A generated file is listed with its own payment id and invoice number. */
  lemma EntryForGeneratedName(pagoId: nat, epochMs: nat, birth: nat)
    ensures var e := EntryFor(InvoiceFileName(pagoId, epochMs), birth);
      e.id == pagoId && e.numeroFactura == InvoiceNumber(pagoId)
  {
    FileNameRoundTrip(pagoId, epochMs);
  }

  /** The listing filter: invoice files only, each as often as listed. */
  function InvoiceFiles(files: seq<string>): (r: seq<string>)
    ensures |r| <= |files|
    ensures forall f :: f in r <==> f in files && IsInvoiceFile(f)
    ensures forall f :: multiset(r)[f] == if IsInvoiceFile(f) then multiset(files)[f] else 0
  {
    Seqs.FilterCounts(files, IsInvoiceFile);
    Seqs.Filter(files, IsInvoiceFile)
  }

  /** The filter keeps the listing order: it distributes over concatenation,
      and one name is kept exactly when it is an invoice file. */
  lemma InvoiceFilesAppend(a: seq<string>, b: seq<string>)
    ensures InvoiceFiles(a + b) == InvoiceFiles(a) + InvoiceFiles(b)
    ensures forall f :: InvoiceFiles([f]) == if IsInvoiceFile(f) then [f] else []
  {
    Seqs.FilterAppend(a, b, IsInvoiceFile);
    forall f ensures InvoiceFiles([f]) == if IsInvoiceFile(f) then [f] else [] {
      assert |[f]| == 1;
    }
  }

  /** One entry per file, in listing order, or nothing when a stat fails. */
  function EntriesFor(files: seq<string>, birth: string -> Option<nat>): (r: Option<seq<InvoiceEntry>>)
    ensures r.Some? <==> forall i | 0 <= i < |files| :: birth(files[i]).Some?
    ensures r.Some? ==> (|r.value| == |files|
      && forall i | 0 <= i < |files| :: r.value[i] == EntryFor(files[i], birth(files[i]).value))
  {
    if |files| == 0 then Some([])
    else
      var rest := EntriesFor(files[1..], birth);
      if birth(files[0]).None? || rest.None? then None
      else Some([EntryFor(files[0], birth(files[0]).value)] + rest.value)
  }

  /** `obtenerFacturas`: the invoice files, newest first; an empty list when
      the directory is missing, unreadable, or a stat fails. `birth` gives a
      file's birth time or fails. */
  function ListInvoices(d: Dir, birth: string -> Option<nat>): (r: seq<InvoiceEntry>)
    ensures !d.Present? ==> r == []
    ensures Sorting.SortedDesc(r, CreatedAt)
    ensures d.Present? ==> var es := EntriesFor(InvoiceFiles(d.files), birth);
      if es.Some? then multiset(r) == multiset(es.value) else r == []
    ensures forall e | e in r :: e.estado == "GENERADA" && e.total == 0.0 && IsInvoiceFile(e.archivo)
  {
    if !d.Present? then []
    else
      var es := EntriesFor(InvoiceFiles(d.files), birth);
      if es.None? then []
      else
        var r := Sorting.SortDesc(es.value, CreatedAt);
        assert forall e | e in r :: e in multiset(es.value);
        r
  }

  /** Files with the same birth time keep their listing order. */
  lemma ListInvoicesStable(d: Dir, birth: string -> Option<nat>, t: int)
    requires d.Present?
    ensures var es := EntriesFor(InvoiceFiles(d.files), birth);
      es.Some? ==> Sorting.WithKey(ListInvoices(d, birth), CreatedAt, t) == Sorting.WithKey(es.value, CreatedAt, t)
  {
    var es := EntriesFor(InvoiceFiles(d.files), birth);
    if es.Some? {
      Sorting.SortDescStable(es.value, CreatedAt, t);
    }
  }

  // ---------------------------------------------------------------------
  // Issuing

  datatype LineItem = LineItem(descripcion: string, cantidad: nat, precioUnitario: real, total: real)

  /** Payload of the QR code printed on the invoice. */
  datatype InvoiceQr = InvoiceQr(nit: string, numeroFactura: string, fecha: string, monto: real, codigoControl: string)

  datatype Invoice = Invoice(
    pagoId: nat,
    numeroFactura: string,
    codigoControl: string,
    trabajadorNombre: string,
    trabajadorTipo: string,
    linea: LineItem,
    subtotal: real,
    descuento: real,
    total: real,
    leyenda: string,
    usuario: string,
    fechaCreacion: Instant,
    qr: InvoiceQr)

  datatype InvoiceOutcome =
    | AlreadyIssued(pagoId: nat, numeroFactura: string, archivo: string)
    | Issued(invoice: Invoice, archivo: string)

  function BuildInvoice(pagoId: nat, pago: Payment, worker: Worker, clock: Clock,
                        digest: string -> string, fixed2: real -> string): Invoice
  {
    var numero := InvoiceNumber(pagoId);
    var code := ControlCode(numero, Nit, pago.monto, clock.epochMs, digest, fixed2);
    Invoice(
      pagoId, numero, code, worker.nombre, worker.tipo,
      LineItem("Pago de Nómina - " + worker.tipo, 1, pago.monto, pago.monto),
      pago.monto, 0.0, pago.monto, FiscalLegend(pago.monto), pago.isUser, clock.now,
      InvoiceQr(Nit, numero, IsoDate(clock.now.date), pago.monto, code))
  }

  /** The first listed file that matches the payment, if the directory exists. */
  function ExistingInvoice(d: Dir, pagoId: nat): (r: Option<string>)
    ensures r.Some? <==> d.Present? && exists i | 0 <= i < |d.files| :: Contains(d.files[i], LookupKey(pagoId))
    ensures r.Some? ==> FindInvoice(d, pagoId) == Some(DocPath(InvoiceFolder, r.value))
  {
    if !d.Present? then None
    else
      var first := FirstContaining(d.files, LookupKey(pagoId));
      if first.Some? then Some(d.files[first.value]) else None
  }

  /** `generarFacturaAutomatica`: returns the invoice already on file for the
      payment, or issues a new one and writes its file. */
  function IssueInvoice(d: Dir, db: Db, pagoId: nat, clock: Clock,
                        digest: string -> string, fixed2: real -> string): (r: (Dir, Result<InvoiceOutcome>))
    ensures d.Unreadable? ==> r == (d, Err(IOFailure("readdir " + InvoiceFolder)))
    ensures r.1.Err? || r.1.value.AlreadyIssued? ==> r.0 == d
    ensures !d.Unreadable? && ExistingInvoice(d, pagoId).Some? ==>
      r == (d, Ok(AlreadyIssued(pagoId, InvoiceNumber(pagoId), ExistingInvoice(d, pagoId).value)))
    ensures r.1.Ok? && r.1.value.Issued? ==>
      && pagoId in db.pagos
      && r.1.value.archivo == InvoiceFileName(pagoId, clock.epochMs)
      && r.0 == CreateAndWrite(d, r.1.value.archivo)
    ensures r.1.Ok? <==>
      !d.Unreadable? && (ExistingInvoice(d, pagoId).Some?
                         || (pagoId in db.pagos && Complete(ViewPayment(db, pagoId).value)))
  {
    if d.Unreadable? then (d, Err(IOFailure("readdir " + InvoiceFolder)))
    else
      var existing := ExistingInvoice(d, pagoId);
      if existing.Some? then
        (d, Ok(AlreadyIssued(pagoId, InvoiceNumber(pagoId), existing.value)))
      else
        var v := ViewPayment(db, pagoId);
        if v.None? then
          (d, Err(NotFound("Pago " + NatToString(pagoId) + " no encontrado")))
        else if !Complete(v.value) then
          (d, Err(TypeFailure(NullReadMessage(v.value))))
        else
          var file := InvoiceFileName(pagoId, clock.epochMs);
          var inv := BuildInvoice(pagoId, v.value.pago, v.value.nomina.value.trabajador.value, clock, digest, fixed2);
          (CreateAndWrite(d, file), Ok(Issued(inv, file)))
  }

  /** Issuing succeeds for every existing payment of a consistent ledger
      whenever the invoice directory can be read. */
  lemma InvoiceSucceeds(d: Dir, db: Db, pagoId: nat, clock: Clock,
                        digest: string -> string, fixed2: real -> string)
    requires Consistent(db) && pagoId in db.pagos && !d.Unreadable?
    ensures IssueInvoice(d, db, pagoId, clock, digest, fixed2).1.Ok?
  {
    ConsistentJoinsComplete(db, pagoId);
  }

  /** When a listed file already matches the payment, the first such file is
      returned with the payment's invoice number, nothing is written, and
      the ledger is not consulted. */
  lemma AlreadyIssuedShortCircuit(d: Dir, db1: Db, db2: Db, pagoId: nat, clock: Clock,
                                  digest: string -> string, fixed2: real -> string, i: nat)
    requires d.Present? && i < |d.files| && Contains(d.files[i], LookupKey(pagoId))
    ensures var r := IssueInvoice(d, db1, pagoId, clock, digest, fixed2);
      && r.0 == d
      && r.1.Ok? && r.1.value.AlreadyIssued?
      && r.1.value.numeroFactura == InvoiceNumber(pagoId)
      && (exists j | 0 <= j <= i :: r.1.value.archivo == d.files[j]
            && Contains(d.files[j], LookupKey(pagoId))
            && forall k | 0 <= k < j :: !Contains(d.files[k], LookupKey(pagoId)))
      && r == IssueInvoice(d, db2, pagoId, clock, digest, fixed2)
  {
    var first := FirstContaining(d.files, LookupKey(pagoId));
    assert first.Some?;
  }

  /** The contents of a newly issued invoice: amounts, number, legend,
      control code and QR payload all follow from the payment. */
  lemma IssuedInvoiceContents(d: Dir, db: Db, pagoId: nat, clock: Clock,
                              digest: string -> string, fixed2: real -> string)
    requires IssueInvoice(d, db, pagoId, clock, digest, fixed2).1.Ok?
    requires IssueInvoice(d, db, pagoId, clock, digest, fixed2).1.value.Issued?
    ensures var inv := IssueInvoice(d, db, pagoId, clock, digest, fixed2).1.value.invoice;
      var pago := db.pagos[pagoId];
      && inv.pagoId == pagoId
      && inv.numeroFactura == InvoiceNumber(pagoId)
      && inv.subtotal == pago.monto && inv.total == pago.monto && inv.descuento == 0.0
      && inv.linea == LineItem("Pago de Nómina - " + inv.trabajadorTipo, 1, pago.monto, pago.monto)
      && inv.leyenda == LegendText(Tier(pago.monto))
      && inv.usuario == pago.isUser
      && inv.qr == InvoiceQr(Nit, inv.numeroFactura, IsoDate(clock.now.date), inv.total, inv.codigoControl)
      && inv.codigoControl == ControlCode(inv.numeroFactura, Nit, pago.monto, clock.epochMs, digest, fixed2)
  {
  }

  /** A payment that does not exist, with no invoice on file, is an error
      and writes nothing. */
  lemma MissingPaymentFails(d: Dir, db: Db, pagoId: nat, clock: Clock,
                            digest: string -> string, fixed2: real -> string)
    requires pagoId !in db.pagos
    requires !d.Present? || FindInvoice(d, pagoId).None?
    ensures var r := IssueInvoice(d, db, pagoId, clock, digest, fixed2);
      r.0 == d && r.1.Err?
  {
  }

  /** Issuing is idempotent: after an invoice is issued, issuing again (at
      any later time) returns the file just written and writes nothing. */
  lemma IssueIdempotent(d: Dir, db: Db, pagoId: nat, clock: Clock, clock2: Clock,
                        digest: string -> string, fixed2: real -> string)
    requires IssueInvoice(d, db, pagoId, clock, digest, fixed2).1.Ok?
    requires IssueInvoice(d, db, pagoId, clock, digest, fixed2).1.value.Issued?
    ensures var r := IssueInvoice(d, db, pagoId, clock, digest, fixed2);
      IssueInvoice(r.0, db, pagoId, clock2, digest, fixed2)
        == (r.0, Ok(AlreadyIssued(pagoId, InvoiceNumber(pagoId), r.1.value.archivo)))
  {
    var r := IssueInvoice(d, db, pagoId, clock, digest, fixed2);
    var file := r.1.value.archivo;
    var key := LookupKey(pagoId);
    var fs := if d.Present? then d.files else [];
    assert ExistingInvoice(d, pagoId).None?;
    assert FirstContaining(fs, key).None?;
    assert r.0 == Present(fs + [file]);
    KeySoundness(pagoId, clock.epochMs, pagoId);
    WrittenFileFound(fs, file, key);
    assert ExistingInvoice(r.0, pagoId) == Some(file);
  }

  /** A file appended after entries that do not match is the first match. */
  lemma WrittenFileFound(fs: seq<string>, file: string, key: string)
    requires forall j | 0 <= j < |fs| :: !Contains(fs[j], key)
    requires Contains(file, key)
    ensures FirstContaining(fs + [file], key) == Some(|fs|)
  {
    var r := FirstContaining(fs + [file], key);
    assert (fs + [file])[|fs|] == file;
    assert forall j | 0 <= j < |fs| :: (fs + [file])[j] == fs[j];
  }
}

=== FILE: formats.dfy ===
/** Display formatting. The floating-point and locale formats
    (`toFixed(2)`, `String(number)`, `toLocaleDateString('es-ES')`) are
    parameters; the ISO rendering (`toISOString().split('T')[0]`) is
    applied to the local date, as time zones are not modelled. */
module Formats {
  import opened Text
  import opened Calendar

  datatype Formats = Formats(
    fixed2: real -> string,       // n.toFixed(2)
    number: real -> string,       // `${n}`
    localeDate: Date -> string)   // toLocaleDateString('es-ES')

  function TwoDigits(n: nat): (s: string)
    ensures |s| >= 2 && AllDigits(s)
    ensures n < 100 ==> |s| == 2
  {
    var s := PadStart(NatToString(n), 2, '0');
    if n < 100 then NatToStringLength(n, 2); s else s
  }

  /** The date part of `toISOString()`: `YYYY-MM-DD`, or a signed six-digit
      year outside 0..9999. */
  function IsoDate(d: Date): (s: string)
    ensures Valid(d) && 0 <= d.year <= 9999 ==> |s| == 10 && s[4] == '-' && s[7] == '-'
  {
    var y :=
      if 0 <= d.year <= 9999 then NatToStringLength(d.year, 4); PadStart(NatToString(d.year), 4, '0')
      else if d.year > 9999 then "+" + PadStart(NatToString(d.year), 6, '0')
      else "-" + PadStart(NatToString(-d.year), 6, '0');
    y + "-" + TwoDigits(d.month) + "-" + TwoDigits(d.day)
  }

  /** One reading of the clock, as epoch milliseconds (`Date.now()`) and as
      a calendar instant (`new Date()`). */
  datatype Clock = Clock(epochMs: nat, now: Instant)
}

=== FILE: json.dfy ===
/** Untyped request bodies (`@Body() body: any`) and the JavaScript
    coercions the controllers apply to them: truthiness for `||` fallbacks
    and `String(v)`. */
module Json {
  import opened Wrappers
  import opened Text

  datatype Json =
    | JNull
    | JBool(b: bool)
    | JNum(n: real)
    | JStr(s: string)
    | JArr(items: seq<Json>)
    | JObj(fields: map<string, Json>)

  /** A parsed JSON object; a key that is absent reads as `undefined`. */
  type Object = map<string, Json>

  /** JavaScript truthiness of a defined value (NaN cannot come out of a JSON body). */
  predicate Truthy(j: Json) {
    match j
    case JNull => false
    case JBool(b) => b
    case JNum(n) => n != 0.0
    case JStr(s) => s != ""
    case JArr(_) => true
    case JObj(_) => true
  }

  /** `a || b` where `a` may be undefined. */
  function Or(a: Option<Json>, b: Json): (r: Json)
    ensures a.Some? && Truthy(a.value) ==> r == a.value
    ensures !(a.Some? && Truthy(a.value)) ==> r == b
  {
    if a.Some? && Truthy(a.value) then a.value else b
  }

  /** `v?.key` when `v` may be undefined: only an object has fields. */
  function Field(v: Option<Json>, key: string): (r: Option<Json>)
    ensures r.Some? <==> v.Some? && v.value.JObj? && key in v.value.fields
  {
    if v.Some? && v.value.JObj? && key in v.value.fields then Some(v.value.fields[key]) else None
  }

  function Get(o: Object, key: string): Option<Json> {
    if key in o then Some(o[key]) else None
  }

  /** `String(v)`. Numbers are rendered by `showNumber`, which stands for
      JavaScript's shortest round-trip decimal form. */
  function ToJsString(j: Json, showNumber: real -> string): string
    decreases j, 0
  {
    match j
    case JNull => "null"
    case JBool(b) => if b then "true" else "false"
    case JNum(n) => showNumber(n)
    case JStr(s) => s
    case JArr(items) => Join(seq(|items|, i requires 0 <= i < |items| => ElementString(items[i], showNumber)), ",")
    case JObj(_) => "[object Object]"
  }

  /** `Array.prototype.join` renders null elements as the empty string. */
  function ElementString(j: Json, showNumber: real -> string): string
    decreases j, 1
  {
    if j.JNull? then "" else ToJsString(j, showNumber)
  }
}

=== FILE: ledger.dfy ===
/** The payroll ledger: the three ORM tables (`trabajador`, `nomina`,
    `pagar`) as maps from row id to row, and the joined view that
    `include: { nomina: { include: { trabajador: true } } }` returns. */
module Ledger {
  import opened Wrappers
  import opened Calendar

  datatype Worker = Worker(nombre: string, sueldo: real, tipo: string)

  /** A payroll period (`nomina`) of one worker. */
  datatype Period = Period(trabajadorId: nat, fecha: Instant, cantidad: real, extra: real, isUser: string)

  /** A payment (`pagar`) of one period. `estado`, `fechaPago` and
      `referencia` are nullable columns; only confirmation sets them. */
  datatype Payment = Payment(
    nominaId: nat,
    monto: real,
    fecha: Instant,
    estado: Option<string>,
    fechaPago: Option<Instant>,
    referencia: Option<string>,
    isUser: string)

  /** The tables, with the next value of each autoincrement id. */
  datatype Db = Db(
    trabajadores: map<nat, Worker>,
    nominas: map<nat, Period>,
    pagos: map<nat, Payment>,
    nextTrabajadorId: nat,
    nextPagoId: nat)

  /** Ids lie below their counters and every foreign key resolves. */
  predicate Consistent(db: Db) {
    && (forall id | id in db.trabajadores :: id < db.nextTrabajadorId)
    && (forall id | id in db.pagos :: id < db.nextPagoId)
    && (forall id | id in db.nominas :: db.nominas[id].trabajadorId in db.trabajadores)
    && (forall id | id in db.pagos :: db.pagos[id].nominaId in db.nominas)
  }

  datatype PeriodView = PeriodView(id: nat, period: Period, trabajador: Option<Worker>)

  datatype PaymentView = PaymentView(id: nat, pago: Payment, nomina: Option<PeriodView>)

  function ViewPeriod(db: Db, id: nat): (v: Option<PeriodView>)
    ensures v.Some? <==> id in db.nominas
    ensures v.Some? ==> v.value.id == id && v.value.period == db.nominas[id]
  {
    if id !in db.nominas then None
    else
      var n := db.nominas[id];
      Some(PeriodView(id, n, if n.trabajadorId in db.trabajadores then Some(db.trabajadores[n.trabajadorId]) else None))
  }

  function ViewPayment(db: Db, id: nat): (v: Option<PaymentView>)
    ensures v.Some? <==> id in db.pagos
    ensures v.Some? ==> v.value.id == id && v.value.pago == db.pagos[id]
  {
    if id !in db.pagos then None
    else Some(PaymentView(id, db.pagos[id], ViewPeriod(db, db.pagos[id].nominaId)))
  }

  /** A complete join: the payment's period and that period's worker exist. */
  predicate Complete(v: PaymentView) {
    v.nomina.Some? && v.nomina.value.trabajador.Some?
  }

  /** The error JavaScript raises on the first property read through an
      incomplete join: `pago.nomina.trabajador` when the period is missing,
      `.nombre` when the worker is. */
  function NullReadMessage(v: PaymentView): string {
    if v.nomina.None? then "Cannot read properties of null (reading 'trabajador')"
    else "Cannot read properties of null (reading 'nombre')"
  }

  /** In a consistent ledger every payment joins completely, with the rows
      its foreign keys name. */
  lemma ConsistentJoinsComplete(db: Db, id: nat)
    requires Consistent(db) && id in db.pagos
    ensures var v := ViewPayment(db, id).value;
      Complete(v)
      && v.nomina.value.period == db.nominas[db.pagos[id].nominaId]
      && v.nomina.value.trabajador.value == db.trabajadores[db.nominas[db.pagos[id].nominaId].trabajadorId]
  {
  }

  /** The ids of the periods that belong to worker `trabajadorId`. */
  function PeriodsOf(db: Db, trabajadorId: nat): set<nat> {
    set id | id in db.nominas && db.nominas[id].trabajadorId == trabajadorId
  }
}

=== FILE: nominacontroller.dfy ===
/** Request normalisation in `NominaController.create`: a defined
    `is_user` that is not a string is replaced by `String(is_user)` before
    the period is stored. */
module NominaController {
  import opened Json

  const IsUserKey: string := "is_user"

  function NormalizeIsUser(data: Object, showNumber: real -> string): (r: Object)
    ensures r.Keys == data.Keys
    ensures forall k | k in data && k != IsUserKey :: r[k] == data[k]
    ensures IsUserKey in data ==> r[IsUserKey].JStr?
    ensures IsUserKey in data && data[IsUserKey].JStr? ==> r == data
    ensures IsUserKey in data && !data[IsUserKey].JStr? ==>
      r[IsUserKey] == JStr(ToJsString(data[IsUserKey], showNumber))
  {
    if IsUserKey in data && !data[IsUserKey].JStr? then
      data[IsUserKey := JStr(ToJsString(data[IsUserKey], showNumber))]
    else data
  }

  /** Normalising twice is normalising once. */
  lemma NormalizeIdempotent(data: Object, showNumber: real -> string)
    ensures NormalizeIsUser(NormalizeIsUser(data, showNumber), showNumber) == NormalizeIsUser(data, showNumber)
  {
  }

  /** Every value of `is_user` reaches the store as a string: the number
      7 becomes "7" (given that 7 prints as "7"), null becomes "null" and
      true becomes "true". */
  lemma NormalizeExamples(data: Object, showNumber: real -> string)
    requires showNumber(7.0) == "7"
    ensures NormalizeIsUser(data[IsUserKey := JNum(7.0)], showNumber)[IsUserKey] == JStr("7")
    ensures NormalizeIsUser(data[IsUserKey := JNull], showNumber)[IsUserKey] == JStr("null")
    ensures NormalizeIsUser(data[IsUserKey := JBool(true)], showNumber)[IsUserKey] == JStr("true")
  {
  }
}

=== FILE: nominapdf.dfy ===
/** Payroll documents rendered from the ledger (`PdfService` of the `pdf`
    module): the payment receipt and the monthly payroll report with its
    paginated table. Only the text content and the table's y-cursor are
    modelled, not fonts or drawing. */
module NominaPdf {
  import opened Wrappers
  import opened Text
  import opened Calendar
  import opened Ledger
  import opened DocStore
  import opened Seqs
  import FacturaNomina

  const DocFolder: string := "facturas"
  const ReceiptPrefix: string := "comprobante_nomina_"

  // ---------------------------------------------------------------------
  // Receipt

  function ReceiptFileName(pagoId: nat, epochMs: nat): string {
    ReceiptPrefix + NatToString(pagoId) + "_" + NatToString(epochMs) + ".pdf"
  }

  /** Payload of the receipt's QR code. */
  datatype ReceiptQr = ReceiptQr(pagoId: nat, trabajador: string, monto: real, fecha: Instant, nominaId: nat)

  datatype Receipt = Receipt(
    path: DocPath,
    trabajadorNombre: string,
    trabajadorTipo: string,
    sueldoBase: real,
    periodo: Instant,
    cantidadBase: real,
    extras: real,
    totalNomina: real,
    pagoId: nat,
    montoPagado: real,
    fechaPago: Instant,
    procesadoPor: string,
    qr: ReceiptQr)

  /** `generarComprobantePago`. A missing payment fails before anything is
      created. Otherwise the directory is created if needed and the file is
      opened; a broken relation fails after the file is opened. An
      unwritable directory is given an error result here; see the README for
      how the source surfaces it. */
  function GenerateReceipt(d: Dir, db: Db, pagoId: nat, epochMs: nat): (r: (Dir, Result<Receipt>))
    ensures pagoId !in db.pagos ==> r == (d, Err(NotFound("Pago no encontrado")))
    ensures r.1.Ok? <==> pagoId in db.pagos && Complete(ViewPayment(db, pagoId).value) && !d.Unreadable?
    ensures pagoId in db.pagos && !Complete(ViewPayment(db, pagoId).value) ==>
      r == (CreateAndWrite(d, ReceiptFileName(pagoId, epochMs)), Err(TypeFailure(NullReadMessage(ViewPayment(db, pagoId).value))))
    ensures r.1.Ok? ==>
      && r.0 == CreateAndWrite(d, ReceiptFileName(pagoId, epochMs))
      && r.1.value.path == DocPath(DocFolder, ReceiptFileName(pagoId, epochMs))
  {
    var v := ViewPayment(db, pagoId);
    if v.None? then (d, Err(NotFound("Pago no encontrado")))
    else
      var file := ReceiptFileName(pagoId, epochMs);
      var written := CreateAndWrite(d, file);
      if !Complete(v.value) then
        (written, Err(TypeFailure(NullReadMessage(v.value))))
      else if d.Unreadable? then
        (d, Err(IOFailure("EACCES: " + DocFolder + "/" + file)))
      else
        var pago := v.value.pago;
        var period := v.value.nomina.value.period;
        var worker := v.value.nomina.value.trabajador.value;
        (written, Ok(Receipt(
          DocPath(DocFolder, file),
          worker.nombre, worker.tipo, worker.sueldo,
          period.fecha, period.cantidad, period.extra, period.cantidad + period.extra,
          pagoId, pago.monto, pago.fecha, pago.isUser,
          ReceiptQr(pagoId, worker.nombre, pago.monto, pago.fecha, pago.nominaId))))
  }

  /** A receipt is produced for every existing payment of a consistent
      ledger whenever its directory can be written. */
  lemma ReceiptSucceeds(d: Dir, db: Db, pagoId: nat, epochMs: nat)
    requires Consistent(db) && pagoId in db.pagos && !d.Unreadable?
    ensures GenerateReceipt(d, db, pagoId, epochMs).1.Ok?
  {
    ConsistentJoinsComplete(db, pagoId);
  }

  /** A receipt shows the joined rows: its total is the period's base plus
      extras, and its QR payload carries exactly the payment id, worker
      name, amount, payment date and period id. */
  lemma ReceiptContents(d: Dir, db: Db, pagoId: nat, epochMs: nat)
    requires GenerateReceipt(d, db, pagoId, epochMs).1.Ok?
    ensures var rc := GenerateReceipt(d, db, pagoId, epochMs).1.value;
      var pago := db.pagos[pagoId];
      var period := db.nominas[pago.nominaId];
      var worker := db.trabajadores[period.trabajadorId];
      && rc.totalNomina == period.cantidad + period.extra
      && rc.qr == ReceiptQr(pagoId, worker.nombre, pago.monto, pago.fecha, pago.nominaId)
      && rc.montoPagado == pago.monto && rc.procesadoPor == pago.isUser
      && rc.trabajadorNombre == worker.nombre && rc.trabajadorTipo == worker.tipo
  {
  }

  /** Receipts share the invoices' directory, but a receipt name never
      matches the lookup key of any invoice. */
  lemma ReceiptNeverMatchesInvoiceKey(pagoId: nat, epochMs: nat, k: nat)
    ensures !Contains(ReceiptFileName(pagoId, epochMs), FacturaNomina.LookupKey(k))
  {
    var s := ReceiptFileName(pagoId, epochMs);
    assert forall i | 0 < i < |ReceiptPrefix| :: ReceiptPrefix[i] != 'f';
    FacturaNomina.ShapeNoInnerF(s, ReceiptPrefix, NatToString(pagoId), NatToString(epochMs));
    FacturaNomina.ForeignNameNeverMatches(s, k);
  }

  // ---------------------------------------------------------------------
  // Pagination of the report table

  /** Where a row is drawn: page number (0 is the first) and y coordinate. */
  datatype Placement = Placement(page: nat, y: int)

  const FirstRowY: int := 120
  const TopY: int := 50
  const BottomY: int := 700
  const RowHeight: int := 20

  /** Reference layout in closed form: 30 rows on the first page
      (y = 120..700) and 33 rows on every later page (y = 50..690). */
  function RowPage(i: nat): nat {
    if i < 30 then 0 else 1 + (i - 30) / 33
  }

  function RowY(i: nat): int {
    if i < 30 then 120 + 20 * i else 50 + 20 * ((i - 30) % 33)
  }

  lemma DivModUnique(a: int, q: int, m: int)
    requires a == 33 * q + m && 0 <= m < 33
    ensures a / 33 == q && a % 33 == m
  {
  }

  /** The cursor rule on the reference layout: after a row at y the next row
      goes to a new page at the top exactly when y + 20 passes the bottom;
      otherwise it goes 20 lower on the same page. Every row lies in [50, 700]. */
  lemma RowStep(i: nat)
    ensures TopY <= RowY(i) <= BottomY
    ensures RowY(i) + RowHeight > BottomY ==> RowY(i + 1) == TopY && RowPage(i + 1) == RowPage(i) + 1
    ensures RowY(i) + RowHeight <= BottomY ==> RowY(i + 1) == RowY(i) + RowHeight && RowPage(i + 1) == RowPage(i)
  {
    if i >= 30 {
      var q, m := (i - 30) / 33, (i - 30) % 33;
      if m < 32 {
        DivModUnique(i + 1 - 30, q, m + 1);
      } else {
        DivModUnique(i + 1 - 30, q + 1, 0);
      }
    }
  }

  // ---------------------------------------------------------------------
  // Monthly report

  /** A period as the report query returns it, with its worker included. */
  datatype PeriodRow = PeriodRow(period: Period, trabajador: Worker)

  datatype ReportLine = ReportLine(numero: nat, nombre: string, tipo: string,
                                   cantidad: real, extra: real, total: real, at: Placement)

  datatype NominaReport = NominaReport(
    path: DocPath,
    desde: Date,
    hasta: Date,
    lines: seq<ReportLine>,
    totalGeneral: real,
    totalAt: Placement)

  function PeriodTotal(r: PeriodRow): real {
    r.period.cantidad + r.period.extra
  }

  function PeriodTotals(rows: seq<PeriodRow>): (ts: seq<real>)
    ensures |ts| == |rows| && forall i | 0 <= i < |rows| :: ts[i] == PeriodTotal(rows[i])
  {
    seq(|rows|, i requires 0 <= i < |rows| => PeriodTotal(rows[i]))
  }

  function LineFor(rows: seq<PeriodRow>, i: nat): ReportLine
    requires i < |rows|
  {
    var p := rows[i].period;
    ReportLine(i + 1, rows[i].trabajador.nombre, rows[i].trabajador.tipo,
               p.cantidad, p.extra, PeriodTotal(rows[i]), Placement(RowPage(i), RowY(i)))
  }

  /** One turn of the cursor: after the page check, the cursor stands at
      row i's place in the closed-form layout. */
  lemma CursorStep(i: nat, y: int, page: nat)
    requires i == 0 ==> y == FirstRowY && page == 0
    requires i > 0 ==> y == RowY(i - 1) + RowHeight && page == RowPage(i - 1)
    ensures (if y > BottomY then page + 1 else page) == RowPage(i)
    ensures (if y > BottomY then TopY else y) == RowY(i)
  {
    if i > 0 {
      RowStep(i - 1);
    }
  }

  lemma PeriodTotalsStep(rows: seq<PeriodRow>, i: nat)
    requires i < |rows|
    ensures Sum(PeriodTotals(rows[..i + 1])) == Sum(PeriodTotals(rows[..i])) + PeriodTotal(rows[i])
  {
    assert PeriodTotals(rows[..i + 1]) == PeriodTotals(rows[..i]) + [PeriodTotal(rows[i])];
    SumSnoc(PeriodTotals(rows[..i]), PeriodTotal(rows[i]));
  }

  /** The table loop: each row is numbered from 1 in input order, placed by
      the y-cursor rule (start at 120, step 20, new page at 50 once the
      cursor passes 700), and added to the running total; the total line
      goes 20 below the final cursor. */
  method LayoutTable(rows: seq<PeriodRow>) returns (lines: seq<ReportLine>, total: real, totalAt: Placement)
    ensures |lines| == |rows|
    ensures forall i | 0 <= i < |rows| :: lines[i] == LineFor(rows, i)
    ensures forall i | 0 <= i < |rows| :: TopY <= lines[i].at.y <= BottomY
    ensures total == Sum(PeriodTotals(rows))
    ensures |rows| == 0 ==> totalAt == Placement(0, FirstRowY + RowHeight)
    ensures |rows| > 0 ==> totalAt == Placement(lines[|rows| - 1].at.page, lines[|rows| - 1].at.y + 2 * RowHeight)
  {
    lines := [];
    total := 0.0;
    var y := FirstRowY;
    var page: nat := 0;
    var i := 0;
    while i < |rows|
      invariant 0 <= i <= |rows| && |lines| == i
      invariant forall k | 0 <= k < i :: lines[k] == LineFor(rows, k)
      invariant total == Sum(PeriodTotals(rows[..i]))
      invariant i == 0 ==> y == FirstRowY && page == 0
      invariant i > 0 ==> y == RowY(i - 1) + RowHeight && page == RowPage(i - 1)
    {
      PeriodTotalsStep(rows, i);
      total := total + PeriodTotal(rows[i]);
      CursorStep(i, y, page);
      if y > BottomY {
        page := page + 1;
        y := TopY;
      }
      lines := lines + [ReportLine(i + 1, rows[i].trabajador.nombre, rows[i].trabajador.tipo,
                                   rows[i].period.cantidad, rows[i].period.extra, PeriodTotal(rows[i]),
                                   Placement(page, y))];
      y := y + RowHeight;
      i := i + 1;
    }
    assert rows[..i] == rows;
    forall k | 0 <= k < |rows|
      ensures TopY <= lines[k].at.y <= BottomY
    {
      RowStep(k);
    }
    totalAt := Placement(page, y + RowHeight);
  }

  function ReportFileName(anio: int, mes: int, epochMs: nat): string {
    "reporte_nominas_" + IntToString(anio) + "_" + IntToString(mes) + "_" + NatToString(epochMs) + ".pdf"
  }

  /** The periods the monthly query selects: `fecha` from midnight of the
      first day up to midnight of the last day (the range as written), in
      query order. */
  function PeriodsInMonth(all: seq<PeriodRow>, mes: int, anio: int): (s: seq<PeriodRow>)
    ensures forall row :: row in s <==> row in all && InMonthAsWritten(row.period.fecha, mes, anio)
    ensures forall row :: multiset(s)[row] == if InMonthAsWritten(row.period.fecha, mes, anio) then multiset(all)[row] else 0
  {
    FilterCounts(all, (row: PeriodRow) => InMonthAsWritten(row.period.fecha, mes, anio));
    Filter(all, (row: PeriodRow) => InMonthAsWritten(row.period.fecha, mes, anio))
  }

  /** For a real month, a period is in the report exactly when its date lies
      in that month and it is not dated after midnight of the last day. */
  lemma PeriodsInMonthIff(all: seq<PeriodRow>, mes: int, anio: int, i: nat)
    requires 1 <= mes <= 12 && !(0 <= anio <= 99)
    requires i < |all| && ValidInstant(all[i].period.fecha)
    ensures all[i] in PeriodsInMonth(all, mes, anio) <==>
      && all[i].period.fecha.date.year == anio && all[i].period.fecha.date.month == mes
      && !(all[i].period.fecha.date.day == DaysInMonth(anio, mes) && all[i].period.fecha.ms > 0)
  {
    InMonthAsWrittenIff(all[i].period.fecha, mes, anio);
  }

  /** `generarReporteMensual`: the periods the query selects, laid out in a
      table with a running total. The directory is not created here, so
      writing fails unless it already exists. */
  method GenerateMonthlyReport(d: Dir, all: seq<PeriodRow>, mes: int, anio: int, epochMs: nat)
    returns (d': Dir, r: Result<NominaReport>)
    ensures r.Ok? <==> d.Present?
    ensures r.Err? ==> d' == d
    ensures r.Ok? ==>
      var selected := PeriodsInMonth(all, mes, anio);
      && d' == CreateAndWrite(d, ReportFileName(anio, mes, epochMs))
      && r.value.path == DocPath(DocFolder, ReportFileName(anio, mes, epochMs))
      && r.value.desde == MonthStart(mes, anio) && r.value.hasta == MonthEnd(mes, anio)
      && |r.value.lines| == |selected|
      && (forall i | 0 <= i < |selected| :: r.value.lines[i] == LineFor(selected, i))
      && r.value.totalGeneral == Sum(PeriodTotals(selected))
      && (|selected| == 0 ==> r.value.totalAt == Placement(0, FirstRowY + RowHeight))
      && (|selected| > 0 ==>
            r.value.totalAt == Placement(r.value.lines[|selected| - 1].at.page, r.value.lines[|selected| - 1].at.y + 2 * RowHeight))
  {
    var selected := PeriodsInMonth(all, mes, anio);
    var file := ReportFileName(anio, mes, epochMs);
    if !d.Present? {
      d' := d;
      r := Err(IOFailure("ENOENT: " + DocFolder + "/" + file));
      return;
    }
    var lines, total, totalAt := LayoutTable(selected);
    d' := CreateAndWrite(d, file);
    r := Ok(NominaReport(DocPath(DocFolder, file), MonthStart(mes, anio), MonthEnd(mes, anio), lines, total, totalAt));
  }
}

=== FILE: pagar.dfy ===
/** Payments of the `pagar` module (`PagarService`): recording a payment
    with an optional Stripe payment intent and an expense voucher,
    confirming it, and the expense reports. */
module PagarService {
  import opened Wrappers
  import opened Text
  import opened Calendar
  import opened Ledger
  import opened DocStore
  import opened Seqs
  import opened Formats
  import EgresoPdf

  const PlaceholderKey: string := "sk_test_tu_clave_aqui"

  /** Stripe is used only with a key that is set, non-empty, and not the
      placeholder from the sample environment file. */
  predicate StripeEnabled(key: Option<string>) {
    key.Some? && key.value != "" && key.value != PlaceholderKey
  }

  /** The acting user, already resolved by the controller. */
  datatype User = User(id: string, nombre: string, rol: string)

  /** The request body once `user` has been removed. */
  datatype PagarData = PagarData(nominaId: nat, monto: real)

  datatype IntentMetadata = IntentMetadata(nominaId: string, userId: string, userNombre: string, userRol: string)

  datatype IntentRequest = IntentRequest(monto: real, currency: string, metadata: IntentMetadata)

  datatype Intent = Intent(id: string, clientSecret: Option<string>)

  function BuildIntentRequest(data: PagarData, user: User): (q: IntentRequest)
    ensures q.monto == data.monto
    ensures q.metadata == IntentMetadata(NatToString(data.nominaId), user.id, user.nombre, user.rol)
  {
    IntentRequest(data.monto, "usd", IntentMetadata(NatToString(data.nominaId), user.id, user.nombre, user.rol))
  }

  /** The row `pagar.create` stores here: period, amount, the acting user
      and the current time; status, confirmation date and reference stay
      empty. */
  function NewPayment(data: PagarData, user: User, clock: Clock): (p: Payment)
    ensures p.nominaId == data.nominaId && p.monto == data.monto && p.isUser == user.id
    ensures p.fecha == clock.now && p.estado.None? && p.fechaPago.None? && p.referencia.None?
  {
    Payment(data.nominaId, data.monto, clock.now, None, None, None, user.id)
  }

  /** The voucher for a payment row, when its period and that period's
      worker exist; otherwise no voucher (`egresoPDF` is the empty string). */
  function VoucherFor(d: Dir, db: Db, pagoId: nat, pago: Payment, clock: Clock): (r: (Dir, Option<DocPath>))
    ensures r.1.None? <==> ViewPeriod(db, pago.nominaId).None? || ViewPeriod(db, pago.nominaId).value.trabajador.None?
    ensures r.1.None? ==> r.0 == d
    ensures r.1.Some? ==>
      && r.0 == CreateAndWrite(d, EgresoPdf.EgresoFileName(pagoId, clock.epochMs))
      && r.1.value == DocPath(EgresoPdf.EgresoFolder, EgresoPdf.EgresoFileName(pagoId, clock.epochMs))
  {
    var n := ViewPeriod(db, pago.nominaId);
    if n.None? || n.value.trabajador.None? then (d, None)
    else
      var e := EgresoPdf.GenerateEgreso(d, pagoId, pago, n.value.trabajador.value, clock.epochMs);
      (e.0, Some(e.1.path))
  }

  /** `client_secret || null`: an empty secret is dropped like a missing one. */
  function Truthy(s: Option<string>): Option<string> {
    if s.Some? && s.value != "" then s else None
  }

  datatype Created = Created(pagoId: nat, pago: Payment, stripeClientSecret: Option<string>, egresoPDF: Option<DocPath>)

  /** `create(data, user)`. With Stripe enabled the intent is created first,
      and its failure stores nothing. The row is then stored; the period
      must exist (the foreign key). A voucher is written when the period's
      worker exists. */
  function Create(d: Dir, db: Db, data: PagarData, user: User, stripeKey: Option<string>,
                  stripe: IntentRequest -> Result<Intent>, clock: Clock): (r: (Dir, Db, Result<Created>))
    ensures StripeEnabled(stripeKey) && stripe(BuildIntentRequest(data, user)).Err? ==> r.0 == d && r.1 == db && r.2.Err?
    ensures data.nominaId !in db.nominas ==> r.0 == d && r.1 == db && r.2.Err?
    ensures r.2.Ok? ==>
      var id := db.nextPagoId;
      && data.nominaId in db.nominas
      && r.1 == db.(pagos := db.pagos[id := NewPayment(data, user, clock)], nextPagoId := id + 1)
      && r.2.value.pagoId == id && r.2.value.pago == NewPayment(data, user, clock)
      && (r.2.value.egresoPDF.None? <==> db.nominas[data.nominaId].trabajadorId !in db.trabajadores)
      && (r.0, r.2.value.egresoPDF) == VoucherFor(d, r.1, id, NewPayment(data, user, clock), clock)
      && (!StripeEnabled(stripeKey) ==> r.2.value.stripeClientSecret.None?)
      && (StripeEnabled(stripeKey) ==>
            var cs := stripe(BuildIntentRequest(data, user)).value.clientSecret;
            && (r.2.value.stripeClientSecret.Some? <==> cs.Some? && cs.value != "")
            && (r.2.value.stripeClientSecret.Some? ==> r.2.value.stripeClientSecret == cs))
    ensures !(StripeEnabled(stripeKey) && stripe(BuildIntentRequest(data, user)).Err?) && data.nominaId in db.nominas ==> r.2.Ok?
  {
    var intent: Result<Option<Intent>> :=
      if StripeEnabled(stripeKey) then
        (var i := stripe(BuildIntentRequest(data, user)); if i.Err? then Err(i.error) else Ok(Some(i.value)))
      else Ok(None);
    if intent.Err? then (d, db, Err(intent.error))
    else if data.nominaId !in db.nominas then
      (d, db, Err(Constraint("Foreign key constraint failed on the field: nominaId")))
    else
      var id := db.nextPagoId;
      var pago := NewPayment(data, user, clock);
      var db' := db.(pagos := db.pagos[id := pago], nextPagoId := id + 1);
      var v := VoucherFor(d, db', id, pago, clock);
      var secret := if intent.value.Some? then Truthy(intent.value.value.clientSecret) else None;
      (v.0, db', Ok(Created(id, pago, secret, v.1)))
  }

  /** Creating a payment keeps the ledger consistent and touches no other
      row. */
  lemma CreatePreserves(d: Dir, db: Db, data: PagarData, user: User, stripeKey: Option<string>,
                        stripe: IntentRequest -> Result<Intent>, clock: Clock)
    requires Consistent(db)
    ensures var db' := Create(d, db, data, user, stripeKey, stripe, clock).1;
      && Consistent(db')
      && db'.trabajadores == db.trabajadores && db'.nominas == db.nominas
      && (forall id | id in db.pagos :: id in db'.pagos && db'.pagos[id] == db.pagos[id])
  {
  }

  /** The fields this confirmation sets: status and confirmation date. The
      reference is left as it was. */
  function Confirmed(p: Payment, at: Instant): (q: Payment)
    ensures q.estado == Some("COMPLETADO") && q.fechaPago == Some(at)
    ensures q.referencia == p.referencia && q.nominaId == p.nominaId && q.monto == p.monto
    ensures q.fecha == p.fecha && q.isUser == p.isUser
  {
    p.(estado := Some("COMPLETADO"), fechaPago := Some(at))
  }

  datatype Confirmation = Confirmation(pago: PaymentView, pagoId: nat, egresoPDF: Option<DocPath>)

  /** `confirmarPago(pagoId)`: a missing row is an error and nothing
      changes; otherwise the row is marked COMPLETADO and a voucher is
      written when its period and worker exist. No payment-provider check
      is made here. */
  function ConfirmarPago(d: Dir, db: Db, pagoId: nat, clock: Clock): (r: (Dir, Db, Result<Confirmation>))
    ensures pagoId !in db.pagos ==> r == (d, db, Err(NotFound("Pago " + NatToString(pagoId) + " no encontrado")))
    ensures pagoId in db.pagos ==>
      && r.1 == db.(pagos := db.pagos[pagoId := Confirmed(db.pagos[pagoId], clock.now)])
      && r.2.Ok? && r.2.value.pagoId == pagoId
      && r.2.value.pago == ViewPayment(r.1, pagoId).value
      && (r.2.value.egresoPDF.Some? <==> Complete(ViewPayment(db, pagoId).value))
      && (r.0, r.2.value.egresoPDF) == VoucherFor(d, r.1, pagoId, r.1.pagos[pagoId], clock)
  {
    if pagoId !in db.pagos then (d, db, Err(NotFound("Pago " + NatToString(pagoId) + " no encontrado")))
    else
      var db' := db.(pagos := db.pagos[pagoId := Confirmed(db.pagos[pagoId], clock.now)]);
      var v := VoucherFor(d, db', pagoId, db'.pagos[pagoId], clock);
      (v.0, db', Ok(Confirmation(ViewPayment(db', pagoId).value, pagoId, v.1)))
  }

  /** Confirming is idempotent on the row apart from the confirmation
      date: a second confirmation leaves the status COMPLETADO and only
      moves `fechaPago` to the new time. */
  lemma ConfirmTwice(d: Dir, db: Db, pagoId: nat, clock: Clock, clock2: Clock)
    requires pagoId in db.pagos
    ensures var r := ConfirmarPago(d, db, pagoId, clock);
      var r2 := ConfirmarPago(r.0, r.1, pagoId, clock2);
      && r2.1.pagos[pagoId] == r.1.pagos[pagoId].(fechaPago := Some(clock2.now))
      && r2.1.pagos[pagoId].estado == Some("COMPLETADO")
      && (forall id | id in db.pagos && id != pagoId :: r2.1.pagos[id] == db.pagos[id])
  {
  }

  // ---------------------------------------------------------------------
  // Reports

  datatype ReportResult = ReportResult(reportePDF: DocPath, totalPagos: nat, montoTotal: real)

  /** `generarReporteEgresos`: every payment, in the order the query
      returns them; the count and total are those the document prints. */
  function ReporteEgresos(d: Dir, pagos: seq<PaymentView>, clock: Clock, fmt: Formats): (r: (Dir, ReportResult))
    ensures r.1.totalPagos == |pagos| && r.1.montoTotal == Sum(EgresoPdf.Amounts(pagos))
    ensures var doc := EgresoPdf.GeneralReport(d, pagos, clock, fmt);
      r.0 == doc.0 && r.1.reportePDF == doc.1.path
      && r.1.totalPagos == doc.1.totalPagos && r.1.montoTotal == doc.1.montoTotal
  {
    var doc := EgresoPdf.GeneralReport(d, pagos, clock, fmt);
    (doc.0, ReportResult(doc.1.path, |pagos|, Sum(EgresoPdf.Amounts(pagos))))
  }

  datatype MonthlyResult = MonthlyResult(reportePDF: DocPath, mes: int, anio: int, totalPagos: nat, montoTotal: real)

  /** The payments the monthly query selects: `fecha` at or after midnight
      of the first day and at or before midnight of the last day (the range
      as written), in query order. */
  function PaymentsInMonth(all: seq<PaymentView>, mes: int, anio: int): (s: seq<PaymentView>)
    ensures forall v :: v in s <==> v in all && InMonthAsWritten(v.pago.fecha, mes, anio)
    ensures forall v :: multiset(s)[v] == if InMonthAsWritten(v.pago.fecha, mes, anio) then multiset(all)[v] else 0
  {
    FilterCounts(all, (v: PaymentView) => InMonthAsWritten(v.pago.fecha, mes, anio));
    Filter(all, (v: PaymentView) => InMonthAsWritten(v.pago.fecha, mes, anio))
  }

  /** The selection keeps query order: it distributes over concatenation. */
  lemma PaymentsInMonthOrder(a: seq<PaymentView>, b: seq<PaymentView>, mes: int, anio: int)
    ensures PaymentsInMonth(a + b, mes, anio) == PaymentsInMonth(a, mes, anio) + PaymentsInMonth(b, mes, anio)
  {
    FilterAppend(a, b, (v: PaymentView) => InMonthAsWritten(v.pago.fecha, mes, anio));
  }

  /** `generarReporteMensual(mes, anio)`: the payments the query selects,
      the monthly document over them, and its count and total. */
  function ReporteMensual(d: Dir, all: seq<PaymentView>, mes: int, anio: int, clock: Clock, fmt: Formats): (r: (Dir, MonthlyResult))
    ensures var sel := PaymentsInMonth(all, mes, anio);
      && r.1.totalPagos == |sel| && r.1.montoTotal == Sum(EgresoPdf.Amounts(sel))
      && r.1.mes == mes && r.1.anio == anio
      && r.0 == CreateAndWrite(d, EgresoPdf.MonthlyReportFileName(mes, anio, clock.epochMs))
      && r.1.reportePDF == DocPath(EgresoPdf.EgresoFolder, EgresoPdf.MonthlyReportFileName(mes, anio, clock.epochMs))
  {
    var sel := PaymentsInMonth(all, mes, anio);
    var doc := EgresoPdf.MonthlyReport(d, sel, mes, anio, clock, fmt);
    (doc.0, MonthlyResult(doc.1.path, mes, anio, |sel|, Sum(EgresoPdf.Amounts(sel))))
  }

  /** For a real month, the report counts a payment exactly when its date
      lies in that month and it was not made after midnight of the last
      day: those are left out by the range as written. */
  lemma MonthlyCountsAsWritten(all: seq<PaymentView>, mes: int, anio: int, i: nat)
    requires 1 <= mes <= 12 && !(0 <= anio <= 99)
    requires i < |all| && ValidInstant(all[i].pago.fecha)
    ensures all[i] in PaymentsInMonth(all, mes, anio) <==>
      && all[i].pago.fecha.date.year == anio && all[i].pago.fecha.date.month == mes
      && !(all[i].pago.fecha.date.day == DaysInMonth(anio, mes) && all[i].pago.fecha.ms > 0)
  {
    InMonthAsWrittenIff(all[i].pago.fecha, mes, anio);
  }

  /** The payment from the counterexample, made at 10:00 on 31 January
      2024, is not in January's report; the corrected selection has it. */
  lemma ReportDropsLastDayPayment(v: PaymentView)
    requires v.pago.fecha == Instant(Date(2024, 1, 31), 36000000)
    ensures PaymentsInMonth([v], 1, 2024) == []
    ensures PaymentsInMonthCorrected([v], 1, 2024) == [v]
  {
    LastDayExcludedAsWritten();
    InMonthIff(v.pago.fecha, 1, 2024);
  }

  /** The evidently intended selection: every payment dated in the month,
      the whole last day included. */
  function PaymentsInMonthCorrected(all: seq<PaymentView>, mes: int, anio: int): (s: seq<PaymentView>)
    ensures forall v :: v in s <==> v in all && InMonth(v.pago.fecha, mes, anio)
    ensures forall v :: multiset(s)[v] == if InMonth(v.pago.fecha, mes, anio) then multiset(all)[v] else 0
  {
    FilterCounts(all, (v: PaymentView) => InMonth(v.pago.fecha, mes, anio));
    Filter(all, (v: PaymentView) => InMonth(v.pago.fecha, mes, anio))
  }

  /** The monthly report over the corrected selection. */
  function ReporteMensualCorrected(d: Dir, all: seq<PaymentView>, mes: int, anio: int, clock: Clock, fmt: Formats): (r: (Dir, MonthlyResult))
    ensures var sel := PaymentsInMonthCorrected(all, mes, anio);
      && r.1.totalPagos == |sel| && r.1.montoTotal == Sum(EgresoPdf.Amounts(sel))
      && r.1.mes == mes && r.1.anio == anio
      && r.0 == CreateAndWrite(d, EgresoPdf.MonthlyReportFileName(mes, anio, clock.epochMs))
      && r.1.reportePDF == DocPath(EgresoPdf.EgresoFolder, EgresoPdf.MonthlyReportFileName(mes, anio, clock.epochMs))
  {
    var sel := PaymentsInMonthCorrected(all, mes, anio);
    var doc := EgresoPdf.MonthlyReport(d, sel, mes, anio, clock, fmt);
    (doc.0, MonthlyResult(doc.1.path, mes, anio, |sel|, Sum(EgresoPdf.Amounts(sel))))
  }

  /** For a real month, the corrected report counts exactly the payments
      whose date lies in it, including those made late on the last day. */
  lemma MonthlyCountsWholeMonth(all: seq<PaymentView>, mes: int, anio: int, i: nat)
    requires 1 <= mes <= 12 && !(0 <= anio <= 99)
    requires i < |all| && ValidInstant(all[i].pago.fecha)
    ensures all[i] in PaymentsInMonthCorrected(all, mes, anio) <==>
      all[i].pago.fecha.date.year == anio && all[i].pago.fecha.date.month == mes
  {
    InMonthIff(all[i].pago.fecha, mes, anio);
  }
}

=== FILE: pagarcontroller.dfy ===
/** Request handling in `PagarController`: resolving the acting user from
    gateway headers or the body, and separating `user` from the data that
    is forwarded to the service. */
module PagarController {
  import opened Wrappers
  import opened Json

  /** The user as the controller builds it: each field comes from the
      gateway header, else from `body.user`, else from a fixed default.
      Body values are untyped, so each field is a JSON value. */
  datatype UserData = UserData(id: Json, nombre: Json, rol: Json)

  /** `header || body.user?.<field> || fallback`. An empty header or a
      falsy body value falls through to the next source. */
  function Resolve(header: Option<string>, bodyValue: Option<Json>, fallback: string): (r: Json)
    ensures header.Some? && header.value != "" ==> r == JStr(header.value)
    ensures (header.None? || header.value == "") && bodyValue.Some? && Truthy(bodyValue.value) ==> r == bodyValue.value
    ensures (header.None? || header.value == "") && !(bodyValue.Some? && Truthy(bodyValue.value)) ==> r == JStr(fallback)
    ensures fallback != "" ==> Truthy(r)
  {
    if header.Some? && header.value != "" then JStr(header.value)
    else Or(bodyValue, JStr(fallback))
  }

  function Header(headers: map<string, string>, name: string): Option<string> {
    if name in headers then Some(headers[name]) else None
  }

  function ResolveUser(headers: map<string, string>, body: Object): (u: UserData)
    ensures var user := Get(body, "user");
      && u.id == Resolve(Header(headers, "x-user-id"), Field(user, "id"), "1")
      && u.nombre == Resolve(Header(headers, "x-user-nombre"), Field(user, "nombre"), "Usuario Test")
      && u.rol == Resolve(Header(headers, "x-user-rol"), Field(user, "rol"), "admin")
  {
    var user := Get(body, "user");
    UserData(
      Resolve(Header(headers, "x-user-id"), Field(user, "id"), "1"),
      Resolve(Header(headers, "x-user-nombre"), Field(user, "nombre"), "Usuario Test"),
      Resolve(Header(headers, "x-user-rol"), Field(user, "rol"), "admin"))
  }

  /** With no gateway headers and no `user` in the body, the test user is used. */
  lemma DefaultUser(body: Object)
    requires "user" !in body
    ensures ResolveUser(map[], body) == UserData(JStr("1"), JStr("Usuario Test"), JStr("admin"))
  {
  }

  /** `const { user, ...data } = body`. */
  function StripUser(body: Object): (data: Object)
    ensures "user" !in data
    ensures forall k | k in body && k != "user" :: k in data && data[k] == body[k]
    ensures forall k | k in data :: k in body
  {
    map k | k in body && k != "user" :: body[k]
  }

  /** Stripping loses nothing but `user`: putting it back restores the body,
      and a body without `user` is forwarded unchanged. */
  lemma StripUserRoundTrip(body: Object)
    ensures "user" in body ==> StripUser(body)["user" := body["user"]] == body
    ensures "user" !in body ==> StripUser(body) == body
  {
  }

  /** `confirmarPago` passes `body.pagoId` to the service; the `:id` path
      parameter is never read. */
  function ConfirmArgument(body: Object, pathId: string): (r: Option<Json>)
    ensures "pagoId" in body ==> r == Some(body["pagoId"])
    ensures "pagoId" !in body ==> r.None?
  {
    Get(body, "pagoId")
  }

  lemma ConfirmIgnoresPath(body: Object, p1: string, p2: string)
    ensures ConfirmArgument(body, p1) == ConfirmArgument(body, p2)
  {
  }
}

=== FILE: pago.dfy ===
/** Payment sessions and their confirmation (`PagoService` of the `pago`
    module). Stripe is a pair of parameters: the function that turns a
    session request into a session, and the status a retrieved session
    reports. */
module PagoService {
  import opened Wrappers
  import opened Text
  import opened Calendar
  import opened Ledger
  import opened DocStore
  import opened Formats
  import FacturaNomina

  /** The constructor refuses to start without a secret key (an absent or
      empty environment variable); the key is then used for every call. */
  function Configure(stripeSecretKey: Option<string>): (r: Result<string>)
    ensures r.Ok? <==> stripeSecretKey.Some? && stripeSecretKey.value != ""
    ensures r.Ok? ==> r.value == stripeSecretKey.value
    ensures r.Err? ==> r.error == Configuration("Configuración de Stripe faltante")
  {
    if stripeSecretKey.None? || stripeSecretKey.value == "" then Err(Configuration("Configuración de Stripe faltante"))
    else Ok(stripeSecretKey.value)
  }

  // ---------------------------------------------------------------------
  // Session creation

  /** `userContext.userId || 'unknown'`. */
  function RecordedUser(userId: Option<string>): (s: string)
    ensures s != ""
    ensures userId.Some? && userId.value != "" ==> s == userId.value
    ensures userId.None? || userId.value == "" ==> s == "unknown"
  {
    if userId.Some? && userId.value != "" then userId.value else "unknown"
  }

  datatype SessionMetadata = SessionMetadata(pagoId: string, nominaId: string, trabajadorId: string, tipo: string)

  /** What is sent to `checkout.sessions.create`: one line item for the
      amount, named after the worker, and the ids of the new record. */
  datatype SessionRequest = SessionRequest(
    productName: string,
    description: string,
    monto: real,
    successUrl: string,
    cancelUrl: string,
    metadata: SessionMetadata)

  datatype Session = Session(id: string, url: string)

  datatype SessionResult = SessionResult(pagoId: nat, sessionId: string, url: string, trabajador: string, monto: real)

  const DefaultFrontend: string := "http://localhost:5173"

  function BuildSessionRequest(frontend: Option<string>, pagoId: nat, nominaId: nat, trabajadorId: nat,
                               worker: Worker, monto: real): (q: SessionRequest)
    ensures q.metadata == SessionMetadata(NatToString(pagoId), NatToString(nominaId), NatToString(trabajadorId), "pago_nomina")
    ensures q.monto == monto
  {
    var base := if frontend.Some? && frontend.value != "" then frontend.value else DefaultFrontend;
    var id := NatToString(pagoId);
    SessionRequest(
      "Pago de Nómina - " + worker.nombre,
      "Pago de sueldo y extras para " + worker.nombre + " (" + worker.tipo + ")",
      monto,
      base + "/pagos?success=true&pago_id=" + id + "&session_id={CHECKOUT_SESSION_ID}",
      base + "/pagos?canceled=true&pago_id=" + id,
      SessionMetadata(id, NatToString(nominaId), NatToString(trabajadorId), "pago_nomina"))
  }

  /** The row `pagar.create` stores: period, amount and user, dated by the
      column default; status, confirmation date and reference start empty. */
  function NewPayment(nominaId: nat, monto: real, isUser: string, clock: Clock): Payment {
    Payment(nominaId, monto, clock.now, None, None, None, isUser)
  }

  /** `crearSesionPagoNomina`. Both the worker and the period must exist;
      otherwise nothing is stored. The payment row is stored before Stripe
      is called, so a Stripe failure leaves it in place. */
  function CrearSesion(db: Db, trabajadorId: nat, nominaId: nat, monto: real, userId: Option<string>,
                       frontend: Option<string>, clock: Clock,
                       stripe: SessionRequest -> Result<Session>): (r: (Db, Result<SessionResult>))
    ensures trabajadorId !in db.trabajadores || nominaId !in db.nominas ==>
      r == (db, Err(NotFound("Trabajador o nómina no encontrados")))
    ensures trabajadorId in db.trabajadores && nominaId in db.nominas ==>
      var id := db.nextPagoId;
      && r.0 == db.(pagos := db.pagos[id := NewPayment(nominaId, monto, RecordedUser(userId), clock)],
                    nextPagoId := id + 1)
      && (r.1.Ok? <==> stripe(BuildSessionRequest(frontend, id, nominaId, trabajadorId, db.trabajadores[trabajadorId], monto)).Ok?)
    ensures r.1.Ok? ==>
      && r.1.value.pagoId == db.nextPagoId && r.1.value.monto == monto
      && r.1.value.trabajador == db.trabajadores[trabajadorId].nombre
  {
    if trabajadorId !in db.trabajadores || nominaId !in db.nominas then
      (db, Err(NotFound("Trabajador o nómina no encontrados")))
    else
      var id := db.nextPagoId;
      var worker := db.trabajadores[trabajadorId];
      var db' := db.(pagos := db.pagos[id := NewPayment(nominaId, monto, RecordedUser(userId), clock)],
                     nextPagoId := id + 1);
      var session := stripe(BuildSessionRequest(frontend, id, nominaId, trabajadorId, worker, monto));
      if session.Err? then (db', Err(session.error))
      else (db', Ok(SessionResult(id, session.value.id, session.value.url, worker.nombre, monto)))
  }

  /** Creating a session keeps the ledger consistent, adds exactly one
      payment (with a fresh id, holding the given period and amount), and
      leaves every other row as it was. */
  lemma CrearSesionPreserves(db: Db, trabajadorId: nat, nominaId: nat, monto: real, userId: Option<string>,
                             frontend: Option<string>, clock: Clock, stripe: SessionRequest -> Result<Session>)
    requires Consistent(db)
    ensures var db' := CrearSesion(db, trabajadorId, nominaId, monto, userId, frontend, clock, stripe).0;
      && Consistent(db')
      && db'.trabajadores == db.trabajadores && db'.nominas == db.nominas
      && db.pagos.Keys <= db'.pagos.Keys
      && (forall id | id in db.pagos :: db'.pagos[id] == db.pagos[id])
      && db'.pagos.Keys <= db.pagos.Keys + {db.nextPagoId}
      && (forall id | id in db'.pagos && id !in db.pagos ::
            id == db.nextPagoId && db'.pagos[id].nominaId == nominaId && db'.pagos[id].monto == monto)
  {
    var db' := CrearSesion(db, trabajadorId, nominaId, monto, userId, frontend, clock, stripe).0;
    if trabajadorId in db.trabajadores && nominaId in db.nominas {
      var id := db.nextPagoId;
      var p := NewPayment(nominaId, monto, RecordedUser(userId), clock);
      assert db' == db.(pagos := db.pagos[id := p], nextPagoId := id + 1);
      assert id !in db.pagos;
      assert db'.pagos.Keys == db.pagos.Keys + {id};
    } else {
      assert db' == db;
    }
  }

  // ---------------------------------------------------------------------
  // Confirmation

  const Completado: string := "COMPLETADO"

  /** The update confirmation applies: status, confirmation date and the
      Stripe session id as reference. */
  function Completed(p: Payment, sessionId: string, at: Instant): (q: Payment)
    ensures q.estado == Some(Completado) && q.fechaPago == Some(at) && q.referencia == Some(sessionId)
    ensures q.nominaId == p.nominaId && q.monto == p.monto && q.fecha == p.fecha && q.isUser == p.isUser
  {
    p.(estado := Some(Completado), fechaPago := Some(at), referencia := Some(sessionId))
  }

  /** The confirmed row as returned (joined with its period and worker),
      with the invoice when one could be produced. */
  datatype Confirmation = Confirmation(pago: PaymentView, factura: Option<FacturaNomina.InvoiceOutcome>)

  /** `confirmarPago(pagoId, sessionId)`. `session` is what retrieving the
      Stripe session gives: its payment status, or a failure. Only a paid
      session reaches the update; an update of a missing row fails. After
      the update an invoice is requested, and its failure is swallowed: the
      confirmation stands and is returned without an invoice. */
  function ConfirmarPago(d: Dir, db: Db, pagoId: nat, sessionId: string, session: Result<string>,
                         clock: Clock, digest: string -> string, fixed2: real -> string): (r: (Dir, Db, Result<Confirmation>))
    ensures session.Err? ==> r == (d, db, Err(session.error))
    ensures session.Ok? && session.value != "paid" ==>
      r == (d, db, Err(Upstream("El pago no ha sido completado en Stripe")))
    ensures session == Ok("paid") && pagoId !in db.pagos ==> r.0 == d && r.1 == db && r.2.Err?
    ensures session == Ok("paid") && pagoId in db.pagos ==>
      var db' := db.(pagos := db.pagos[pagoId := Completed(db.pagos[pagoId], sessionId, clock.now)]);
      var inv := FacturaNomina.IssueInvoice(d, db', pagoId, clock, digest, fixed2);
      && r.1 == db'
      && r.2.Ok?
      && r.2.value.pago == ViewPayment(db', pagoId).value
      && r.0 == inv.0
      && (r.2.value.factura.Some? <==> inv.1.Ok?)
      && (inv.1.Ok? ==> r.2.value.factura == Some(inv.1.value))
  {
    if session.Err? then (d, db, Err(session.error))
    else if session.value != "paid" then (d, db, Err(Upstream("El pago no ha sido completado en Stripe")))
    else if pagoId !in db.pagos then
      (d, db, Err(NotFound("Record to update not found.")))
    else
      var db' := db.(pagos := db.pagos[pagoId := Completed(db.pagos[pagoId], sessionId, clock.now)]);
      var view := ViewPayment(db', pagoId).value;
      var inv := FacturaNomina.IssueInvoice(d, db', pagoId, clock, digest, fixed2);
      if inv.1.Err? then (inv.0, db', Ok(Confirmation(view, None)))
      else (inv.0, db', Ok(Confirmation(view, Some(inv.1.value))))
  }

  /** A paid session for an existing row is always confirmed, and the
      confirmation changes only that row: it is COMPLETADO with the session
      as reference whether or not the invoice was produced, the ledger stays
      consistent, and every other row is unchanged. */
  lemma ConfirmationStands(d: Dir, db: Db, pagoId: nat, sessionId: string, session: Result<string>,
                           clock: Clock, digest: string -> string, fixed2: real -> string)
    requires Consistent(db)
    requires session == Ok("paid") && pagoId in db.pagos
    ensures ConfirmarPago(d, db, pagoId, sessionId, session, clock, digest, fixed2).2.Ok?
    ensures var db' := ConfirmarPago(d, db, pagoId, sessionId, session, clock, digest, fixed2).1;
      && Consistent(db')
      && db'.pagos.Keys == db.pagos.Keys
      && db'.pagos[pagoId].estado == Some(Completado)
      && db'.pagos[pagoId].referencia == Some(sessionId)
      && db'.pagos[pagoId].monto == db.pagos[pagoId].monto
      && (forall id | id in db.pagos && id != pagoId :: db'.pagos[id] == db.pagos[id])
      && db'.trabajadores == db.trabajadores && db'.nominas == db.nominas
  {
    var db' := db.(pagos := db.pagos[pagoId := Completed(db.pagos[pagoId], sessionId, clock.now)]);
    assert ConfirmarPago(d, db, pagoId, sessionId, session, clock, digest, fixed2).1 == db';
    assert db'.pagos.Keys == db.pagos.Keys;
  }

  /** A paid, existing payment is confirmed even when the invoice cannot be
      produced (here: the invoice directory cannot be read). */
  lemma InvoiceFailureDoesNotRollBack(db: Db, pagoId: nat, sessionId: string,
                                      clock: Clock, digest: string -> string, fixed2: real -> string)
    requires pagoId in db.pagos
    ensures var r := ConfirmarPago(Unreadable, db, pagoId, sessionId, Ok("paid"), clock, digest, fixed2);
      && r.2.Ok? && r.2.value.factura.None?
      && r.1.pagos[pagoId].estado == Some(Completado)
  {
  }

  /** Confirming the same paid payment twice, with no invoice on file
      before: the first call issues the invoice and the second finds it and
      writes no new file. */
  lemma ConfirmTwiceIssuesOnce(d: Dir, db: Db, pagoId: nat, sessionId: string,
                               clock: Clock, clock2: Clock, digest: string -> string, fixed2: real -> string)
    requires Consistent(db) && pagoId in db.pagos
    requires !d.Unreadable? && FacturaNomina.ExistingInvoice(d, pagoId).None?
    ensures var r := ConfirmarPago(d, db, pagoId, sessionId, Ok("paid"), clock, digest, fixed2);
      var r2 := ConfirmarPago(r.0, r.1, pagoId, sessionId, Ok("paid"), clock2, digest, fixed2);
      && r.2.Ok? && r.2.value.factura.Some? && r.2.value.factura.value.Issued?
      && r2.0 == r.0
      && r2.2.Ok? && r2.2.value.factura.Some? && r2.2.value.factura.value.AlreadyIssued?
      && r2.2.value.factura.value.archivo == r.2.value.factura.value.archivo
  {
    var db' := db.(pagos := db.pagos[pagoId := Completed(db.pagos[pagoId], sessionId, clock.now)]);
    ConfirmationStands(d, db, pagoId, sessionId, Ok("paid"), clock, digest, fixed2);
    FacturaNomina.InvoiceSucceeds(d, db', pagoId, clock, digest, fixed2);
    FacturaNomina.IssueIdempotent(d, db', pagoId, clock, clock2, digest, fixed2);
  }
}

=== FILE: pagocontroller.dfy ===
/** The payment-status statistics of `PagoController.obtenerEstadosPagos`:
    one pass over the payments that counts them per status and keeps the
    first payment seen with each status as its example. The two result
    objects are modelled as one association list in first-seen order. */
module PagoController {
  import opened Wrappers
  import opened Calendar
  import opened Ledger

  const SinEstado: string := "SIN_ESTADO"
  const NoDisponible: string := "No disponible"

  /** `pago.estado || 'SIN_ESTADO'`: a null or empty status is counted
      under SIN_ESTADO. */
  function StatusKey(v: PaymentView): (k: string)
    ensures k != ""
    ensures v.pago.estado.Some? && v.pago.estado.value != "" ==> k == v.pago.estado.value
    ensures v.pago.estado.None? || v.pago.estado.value == "" ==> k == SinEstado
  {
    if v.pago.estado.Some? && v.pago.estado.value != "" then v.pago.estado.value else SinEstado
  }

  datatype Example = Example(id: nat, monto: real, fecha: Instant, trabajador: string)

  /** The example record; the worker name falls back to 'No disponible'
      when the relation is missing or the name is empty. */
  function ExampleOf(v: PaymentView): (e: Example)
    ensures e.id == v.id && e.monto == v.pago.monto && e.fecha == v.pago.fecha
    ensures e.trabajador != ""
    ensures Complete(v) && v.nomina.value.trabajador.value.nombre != "" ==> e.trabajador == v.nomina.value.trabajador.value.nombre
    ensures !(Complete(v) && v.nomina.value.trabajador.value.nombre != "") ==> e.trabajador == NoDisponible
  {
    var name := if Complete(v) && v.nomina.value.trabajador.value.nombre != "" then v.nomina.value.trabajador.value.nombre
                else NoDisponible;
    Example(v.id, v.pago.monto, v.pago.fecha, name)
  }

  datatype Entry = Entry(estado: string, cantidad: nat, ejemplo: Example)

  datatype Stats = Stats(totalPagos: nat, estados: seq<Entry>)

  // ---------------------------------------------------------------------
  // Reference definitions over the payment list

  /** How many payments carry status key `k`. */
  function Count(pagos: seq<PaymentView>, k: string): nat {
    if |pagos| == 0 then 0
    else Count(pagos[..|pagos| - 1], k) + (if StatusKey(pagos[|pagos| - 1]) == k then 1 else 0)
  }

  /** The position of the first payment with status key `k`. */
  function FirstIndex(pagos: seq<PaymentView>, k: string): (r: Option<nat>)
    ensures r.Some? ==>
      && r.value < |pagos| && StatusKey(pagos[r.value]) == k
      && forall l | 0 <= l < r.value :: StatusKey(pagos[l]) != k
    ensures r.None? ==> forall l | 0 <= l < |pagos| :: StatusKey(pagos[l]) != k
  {
    if |pagos| == 0 then None
    else
      var pre := pagos[..|pagos| - 1];
      assert forall l | 0 <= l < |pre| :: pre[l] == pagos[l];
      var p := FirstIndex(pre, k);
      if p.Some? then Some(p.value)
      else if StatusKey(pagos[|pagos| - 1]) == k then Some(|pagos| - 1)
      else None
  }

  lemma {:induction false} CountZero(pagos: seq<PaymentView>, k: string)
    requires FirstIndex(pagos, k).None?
    ensures Count(pagos, k) == 0
  {
    if |pagos| > 0 {
      var pre := pagos[..|pagos| - 1];
      assert FirstIndex(pre, k).None?;
      CountZero(pre, k);
    }
  }

  // ---------------------------------------------------------------------
  // The fold

  function IndexOf(es: seq<Entry>, k: string): (r: Option<nat>)
    ensures r.Some? ==> r.value < |es| && es[r.value].estado == k
    ensures r.None? ==> forall i | 0 <= i < |es| :: es[i].estado != k
  {
    if |es| == 0 then None
    else if es[0].estado == k then Some(0)
    else
      var r := IndexOf(es[1..], k);
      if r.Some? then Some(r.value + 1) else None
  }

  /** One iteration of the `forEach`: a status seen for the first time gets
      count 1 and this payment as its example; a known status is incremented. */
  function Step(es: seq<Entry>, v: PaymentView): seq<Entry> {
    var k := StatusKey(v);
    var i := IndexOf(es, k);
    if i.None? then es + [Entry(k, 1, ExampleOf(v))]
    else es[i.value := es[i.value].(cantidad := es[i.value].cantidad + 1)]
  }

  function Tally(pagos: seq<PaymentView>): seq<Entry> {
    if |pagos| == 0 then [] else Step(Tally(pagos[..|pagos| - 1]), pagos[|pagos| - 1])
  }

  function EstadosPagos(pagos: seq<PaymentView>): (s: Stats)
    ensures s.totalPagos == |pagos|
  {
    Stats(|pagos|, Tally(pagos))
  }

  function SumCounts(es: seq<Entry>): nat {
    if |es| == 0 then 0 else es[0].cantidad + SumCounts(es[1..])
  }

  lemma {:induction false} SumCountsSnoc(es: seq<Entry>, e: Entry)
    ensures SumCounts(es + [e]) == SumCounts(es) + e.cantidad
  {
    if |es| > 0 {
      assert (es + [e])[1..] == es[1..] + [e];
      SumCountsSnoc(es[1..], e);
    }
  }

  lemma {:induction false} SumCountsBump(es: seq<Entry>, i: nat)
    requires i < |es|
    ensures SumCounts(es[i := es[i].(cantidad := es[i].cantidad + 1)]) == SumCounts(es) + 1
  {
    if i > 0 {
      assert es[i := es[i].(cantidad := es[i].cantidad + 1)][1..] == es[1..][i - 1 := es[i].(cantidad := es[i].cantidad + 1)];
      SumCountsBump(es[1..], i - 1);
    }
  }

  ghost predicate DistinctKeys(es: seq<Entry>) {
    forall i, j | 0 <= i < j < |es| :: es[i].estado != es[j].estado
  }

  ghost predicate Covers(es: seq<Entry>, pagos: seq<PaymentView>) {
    forall k :: IndexOf(es, k).Some? <==> FirstIndex(pagos, k).Some?
  }

  ghost predicate CountsMatch(es: seq<Entry>, pagos: seq<PaymentView>) {
    forall i | 0 <= i < |es| :: es[i].cantidad == Count(pagos, es[i].estado)
  }

  ghost predicate FirstExamples(es: seq<Entry>, pagos: seq<PaymentView>) {
    forall i | 0 <= i < |es| :: FirstIndex(pagos, es[i].estado).Some?
      && es[i].ejemplo == ExampleOf(pagos[FirstIndex(pagos, es[i].estado).value])
  }

  /** The result the fold promises for `pagos`: one entry per distinct
      status key present, each with that key's count and its first payment
      as example, and counts adding up to the number of payments. */
  ghost predicate Tallies(es: seq<Entry>, pagos: seq<PaymentView>) {
    DistinctKeys(es) && Covers(es, pagos) && CountsMatch(es, pagos) && FirstExamples(es, pagos)
    && SumCounts(es) == |pagos|
  }

  /** Appending a payment extends each key's first position and count. */
  lemma AppendFacts(pre: seq<PaymentView>, v: PaymentView, k: string)
    ensures FirstIndex(pre + [v], k) ==
      (if FirstIndex(pre, k).Some? then FirstIndex(pre, k) else if StatusKey(v) == k then Some(|pre|) else None)
    ensures Count(pre + [v], k) == Count(pre, k) + (if StatusKey(v) == k then 1 else 0)
  {
    assert (pre + [v])[..|pre|] == pre;
  }

  lemma StepNewCovers(es: seq<Entry>, pre: seq<PaymentView>, v: PaymentView)
    requires Covers(es, pre)
    requires IndexOf(es, StatusKey(v)).None?
    ensures Covers(es + [Entry(StatusKey(v), 1, ExampleOf(v))], pre + [v])
  {
    var k := StatusKey(v);
    var es' := es + [Entry(k, 1, ExampleOf(v))];
    forall k' ensures IndexOf(es', k').Some? <==> FirstIndex(pre + [v], k').Some? {
      AppendFacts(pre, v, k');
      if k' == k {
        assert es'[|es|].estado == k;
      } else if IndexOf(es, k').Some? {
        assert es'[IndexOf(es, k').value].estado == k';
      } else {
        assert forall i | 0 <= i < |es'| :: es'[i].estado != k';
      }
    }
  }

  lemma StepNewEntries(es: seq<Entry>, pre: seq<PaymentView>, v: PaymentView)
    requires CountsMatch(es, pre) && FirstExamples(es, pre)
    requires FirstIndex(pre, StatusKey(v)).None?
    ensures var es' := es + [Entry(StatusKey(v), 1, ExampleOf(v))];
      CountsMatch(es', pre + [v]) && FirstExamples(es', pre + [v])
  {
    var pagos := pre + [v];
    var k := StatusKey(v);
    var es' := es + [Entry(k, 1, ExampleOf(v))];
    CountZero(pre, k);
    AppendFacts(pre, v, k);
    forall i | 0 <= i < |es|
      ensures es'[i].cantidad == Count(pagos, es'[i].estado)
      ensures FirstIndex(pagos, es'[i].estado) == FirstIndex(pre, es[i].estado)
    {
      AppendFacts(pre, v, es[i].estado);
    }
  }

  lemma StepNew(es: seq<Entry>, pre: seq<PaymentView>, v: PaymentView)
    requires Tallies(es, pre)
    requires IndexOf(es, StatusKey(v)).None?
    ensures Tallies(Step(es, v), pre + [v])
  {
    var k := StatusKey(v);
    var e := Entry(k, 1, ExampleOf(v));
    assert Step(es, v) == es + [e];
    assert FirstIndex(pre, k).None?;
    StepNewCovers(es, pre, v);
    StepNewEntries(es, pre, v);
    SumCountsSnoc(es, e);
    assert DistinctKeys(es + [e]);
  }

  lemma StepKnownCovers(es: seq<Entry>, pre: seq<PaymentView>, v: PaymentView, n: nat)
    requires Covers(es, pre)
    requires n < |es| && es[n].estado == StatusKey(v)
    ensures Covers(es[n := es[n].(cantidad := es[n].cantidad + 1)], pre + [v])
  {
    var es' := es[n := es[n].(cantidad := es[n].cantidad + 1)];
    assert FirstIndex(pre, StatusKey(v)).Some? by { assert IndexOf(es, StatusKey(v)).Some?; }
    forall k' ensures IndexOf(es', k').Some? <==> FirstIndex(pre + [v], k').Some? {
      AppendFacts(pre, v, k');
      if IndexOf(es, k').Some? {
        assert es'[IndexOf(es, k').value].estado == k';
      } else {
        assert forall i | 0 <= i < |es'| :: es'[i].estado != k';
      }
    }
  }

  lemma StepKnownEntries(es: seq<Entry>, pre: seq<PaymentView>, v: PaymentView, n: nat)
    requires DistinctKeys(es) && CountsMatch(es, pre) && FirstExamples(es, pre)
    requires n < |es| && es[n].estado == StatusKey(v)
    ensures var es' := es[n := es[n].(cantidad := es[n].cantidad + 1)];
      CountsMatch(es', pre + [v]) && FirstExamples(es', pre + [v])
  {
    var pagos := pre + [v];
    var es' := es[n := es[n].(cantidad := es[n].cantidad + 1)];
    forall i | 0 <= i < |es|
      ensures es'[i].cantidad == Count(pagos, es'[i].estado)
      ensures FirstIndex(pagos, es'[i].estado) == FirstIndex(pre, es[i].estado)
    {
      AppendFacts(pre, v, es[i].estado);
      assert i != n ==> es[i].estado != es[n].estado;
    }
  }

  lemma StepKnownDistinct(es: seq<Entry>, n: nat)
    requires DistinctKeys(es) && n < |es|
    ensures DistinctKeys(es[n := es[n].(cantidad := es[n].cantidad + 1)])
  {
    var es' := es[n := es[n].(cantidad := es[n].cantidad + 1)];
    assert forall i | 0 <= i < |es| :: es'[i].estado == es[i].estado;
  }

  lemma StepKnown(es: seq<Entry>, pre: seq<PaymentView>, v: PaymentView)
    requires Tallies(es, pre)
    requires IndexOf(es, StatusKey(v)).Some?
    ensures Tallies(Step(es, v), pre + [v])
  {
    var n := IndexOf(es, StatusKey(v)).value;
    var es' := es[n := es[n].(cantidad := es[n].cantidad + 1)];
    assert Step(es, v) == es';
    StepKnownCovers(es, pre, v, n);
    StepKnownEntries(es, pre, v, n);
    SumCountsBump(es, n);
    StepKnownDistinct(es, n);
  }

  lemma StepTallies(es: seq<Entry>, pre: seq<PaymentView>, v: PaymentView)
    requires Tallies(es, pre)
    ensures Tallies(Step(es, v), pre + [v])
  {
    if IndexOf(es, StatusKey(v)).None? {
      StepNew(es, pre, v);
    } else {
      StepKnown(es, pre, v);
    }
  }

  lemma {:induction false} TallyCorrect(pagos: seq<PaymentView>)
    ensures Tallies(Tally(pagos), pagos)
  {
    if |pagos| > 0 {
      var pre, v := pagos[..|pagos| - 1], pagos[|pagos| - 1];
      TallyCorrect(pre);
      StepTallies(Tally(pre), pre, v);
      SnocSplit(pagos);
    }
  }

  lemma SnocSplit(pagos: seq<PaymentView>)
    requires |pagos| > 0
    ensures pagos[..|pagos| - 1] + [pagos[|pagos| - 1]] == pagos
  {
  }

  /** The statistics: the total is the number of payments; every payment's
      status key has exactly one entry and every entry's key occurs; each
      count is the number of payments with that key, and the counts add up
      to the total; each example is the first payment with that key. */
  lemma EstadosPagosCorrect(pagos: seq<PaymentView>)
    ensures var s := EstadosPagos(pagos);
      && s.totalPagos == |pagos|
      && SumCounts(s.estados) == s.totalPagos
      && (forall i, j | 0 <= i < j < |s.estados| :: s.estados[i].estado != s.estados[j].estado)
      && (forall j | 0 <= j < |pagos| :: IndexOf(s.estados, StatusKey(pagos[j])).Some?)
      && (forall i | 0 <= i < |s.estados| :: s.estados[i].cantidad == Count(pagos, s.estados[i].estado)
            && s.estados[i].cantidad >= 1)
      && (forall i | 0 <= i < |s.estados| ::
            exists j | 0 <= j < |pagos| ::
              && StatusKey(pagos[j]) == s.estados[i].estado
              && s.estados[i].ejemplo == ExampleOf(pagos[j])
              && forall l | 0 <= l < j :: StatusKey(pagos[l]) != s.estados[i].estado)
  {
    var es := Tally(pagos);
    TallyCorrect(pagos);
    forall j | 0 <= j < |pagos| ensures IndexOf(es, StatusKey(pagos[j])).Some? {
      assert FirstIndex(pagos, StatusKey(pagos[j])).Some?;
    }
    forall i | 0 <= i < |es| ensures es[i].cantidad >= 1 {
      var f := FirstIndex(pagos, es[i].estado).value;
      if Count(pagos, es[i].estado) == 0 {
        CountPositive(pagos, es[i].estado, f);
      }
    }
  }

  lemma {:induction false} CountPositive(pagos: seq<PaymentView>, k: string, j: nat)
    requires j < |pagos| && StatusKey(pagos[j]) == k
    ensures Count(pagos, k) >= 1
  {
    if j < |pagos| - 1 {
      CountPositive(pagos[..|pagos| - 1], k, j);
    }
  }
}

=== FILE: seqs.dfy ===
/** Sequence folds the services compute with `reduce`/`forEach`: a running
    sum and an order-preserving filter. */
module Seqs {

  /** Left-to-right sum, as `xs.reduce((s, x) => s + x, 0)`. */
  function Sum(xs: seq<real>): real {
    if |xs| == 0 then 0.0 else Sum(xs[..|xs| - 1]) + xs[|xs| - 1]
  }

  lemma SumSnoc(xs: seq<real>, x: real)
    ensures Sum(xs + [x]) == Sum(xs) + x
  {
    assert (xs + [x])[..|xs|] == xs;
  }

  /** `xs.filter(keep)`: kept elements only, every kept element present.
      Multiplicity is stated by `FilterCounts` and order by `FilterAppend`. */
  function Filter<T>(xs: seq<T>, keep: T -> bool): (r: seq<T>)
    ensures |r| <= |xs|
    ensures forall i | 0 <= i < |r| :: r[i] in xs && keep(r[i])
    ensures forall i | 0 <= i < |xs| :: keep(xs[i]) ==> xs[i] in r
    ensures |xs| == 1 ==> r == if keep(xs[0]) then xs else []
  {
    if |xs| == 0 then []
    else (if keep(xs[0]) then [xs[0]] else []) + Filter(xs[1..], keep)
  }

  /** Every kept element occurs as often as in the input, nothing else occurs. */
  lemma {:induction false} FilterCounts<T>(xs: seq<T>, keep: T -> bool)
    ensures forall x :: multiset(Filter(xs, keep))[x] == if keep(x) then multiset(xs)[x] else 0
  {
    if |xs| > 0 {
      FilterCounts(xs[1..], keep);
      assert xs == [xs[0]] + xs[1..];
      assert multiset(xs) == multiset{xs[0]} + multiset(xs[1..]);
    }
  }

  /** Filtering keeps relative order: it distributes over concatenation
      (with the one-element case in `Filter`'s contract). */
  lemma {:induction false} FilterAppend<T>(xs: seq<T>, ys: seq<T>, keep: T -> bool)
    ensures Filter(xs + ys, keep) == Filter(xs, keep) + Filter(ys, keep)
  {
    if |xs| > 0 {
      var head := if keep(xs[0]) then [xs[0]] else [];
      assert (xs + ys)[0] == xs[0];
      assert (xs + ys)[1..] == xs[1..] + ys;
      assert Filter(xs + ys, keep) == head + Filter(xs[1..] + ys, keep);
      FilterAppend(xs[1..], ys, keep);
      assert Filter(xs, keep) == head + Filter(xs[1..], keep);
    } else {
      assert xs + ys == ys;
    }
  }
}

=== FILE: sorting.dfy ===
/** `Array.prototype.sort` with a numeric comparator `(a, b) => key(b) - key(a)`:
    a stable sort into descending key order, as a functional insertion sort. */
module Sorting {

  predicate SortedDesc<T>(s: seq<T>, key: T -> int) {
    forall i, j | 0 <= i < j < |s| :: key(s[i]) >= key(s[j])
  }

  /** The elements of `s` whose key is `k`, in order. */
  function WithKey<T>(s: seq<T>, key: T -> int, k: int): seq<T> {
    if |s| == 0 then []
    else (if key(s[0]) == k then [s[0]] else []) + WithKey(s[1..], key, k)
  }

  /** Inserts `x` before the first element whose key is not larger, so that
      `x` precedes the elements of equal key that follow it in the input. */
  function Insert<T>(x: T, s: seq<T>, key: T -> int): (r: seq<T>)
    requires SortedDesc(s, key)
    ensures |r| == |s| + 1
    ensures key(r[0]) == key(x) || (|s| > 0 && key(r[0]) == key(s[0]))
    ensures SortedDesc(r, key)
    ensures multiset(r) == multiset(s) + multiset{x}
  {
    if |s| == 0 || key(x) >= key(s[0]) then [x] + s
    else
      var rest := Insert(x, s[1..], key);
      assert s == [s[0]] + s[1..];
      assert key(rest[0]) <= key(s[0]);
      assert forall j | 0 <= j < |rest| :: key(rest[j]) <= key(rest[0]);
      [s[0]] + rest
  }

  function SortDesc<T>(s: seq<T>, key: T -> int): (r: seq<T>)
    ensures SortedDesc(r, key)
    ensures multiset(r) == multiset(s)
  {
    if |s| == 0 then []
    else
      assert s == [s[0]] + s[1..];
      Insert(s[0], SortDesc(s[1..], key), key)
  }

  lemma WithKeyCons<T>(a: T, s: seq<T>, key: T -> int, k: int)
    ensures WithKey([a] + s, key, k) == (if key(a) == k then [a] else []) + WithKey(s, key, k)
  {
    assert ([a] + s)[1..] == s;
  }

  lemma {:induction false} InsertWithKey<T>(x: T, s: seq<T>, key: T -> int, k: int)
    requires SortedDesc(s, key)
    ensures WithKey(Insert(x, s, key), key, k)
         == (if key(x) == k then [x] else []) + WithKey(s, key, k)
  {
    if |s| == 0 || key(x) >= key(s[0]) {
      WithKeyCons(x, s, key, k);
    } else {
      var rest := Insert(x, s[1..], key);
      InsertWithKey(x, s[1..], key, k);
      assert Insert(x, s, key) == [s[0]] + rest;
      assert s == [s[0]] + s[1..];
      WithKeyCons(s[0], rest, key, k);
      WithKeyCons(s[0], s[1..], key, k);
      if key(x) == k {
        // every element before x's slot has a key above key(x)
        assert key(s[0]) != k;
      }
    }
  }

  /** Stability: for every key the elements carrying it keep their input order. */
  lemma {:induction false} SortDescStable<T>(s: seq<T>, key: T -> int, k: int)
    ensures WithKey(SortDesc(s, key), key, k) == WithKey(s, key, k)
  {
    if |s| > 0 {
      SortDescStable(s[1..], key, k);
      InsertWithKey(s[0], SortDesc(s[1..], key), key, k);
    }
  }
}

=== FILE: text.dfy ===
/** String helpers with the semantics of the JavaScript built-ins the services
    use: `Number.prototype.toString`, `parseInt`, `padStart`, `startsWith`,
    `endsWith`, `includes`, `substring` and `toUpperCase`. */
module Text {

  predicate IsDigit(c: char) {
    '0' <= c <= '9'
  }

  predicate AllDigits(s: string) {
    forall i | 0 <= i < |s| :: IsDigit(s[i])
  }

  function DigitValue(c: char): (d: nat)
    requires IsDigit(c)
    ensures d < 10
  {
    c as int - '0' as int
  }

  function Digit(d: nat): (c: char)
    requires d < 10
    ensures IsDigit(c) && DigitValue(c) == d
  {
    (d + '0' as int) as char
  }

  /** Decimal rendering of a non-negative integer: no sign, no leading zero. */
  function NatToString(n: nat): (s: string)
    ensures 1 <= |s| && AllDigits(s)
    ensures s[0] == '0' <==> n == 0
    ensures n == 0 ==> s == "0"
  {
    if n < 10 then [Digit(n)] else NatToString(n / 10) + [Digit(n % 10)]
  }

  function Pow10(k: nat): (p: nat)
    ensures p >= 1
  {
    if k == 0 then 1 else 10 * Pow10(k - 1)
  }

  /** A number below 10^k renders in at most k digits. */
  lemma {:induction false} NatToStringLength(n: nat, k: nat)
    requires 1 <= k && n < Pow10(k)
    ensures |NatToString(n)| <= k
  {
    if n >= 10 {
      NatToStringLength(n / 10, k - 1);
    }
  }

  /** Decimal rendering of an integer, with a leading `-` when negative. */
  function IntToString(n: int): (s: string)
    ensures n >= 0 ==> s == NatToString(n)
    ensures n < 0 ==> s == "-" + NatToString(-n)
  {
    if n >= 0 then NatToString(n) else "-" + NatToString(-n)
  }

  /** `parseInt` of a string of decimal digits (leading zeros allowed). */
  function ParseDigits(s: string): nat
    requires AllDigits(s)
  {
    if |s| == 0 then 0 else 10 * ParseDigits(s[..|s| - 1]) + DigitValue(s[|s| - 1])
  }

  /** Parsing undoes rendering. */
  lemma {:induction false} ParseNatToString(n: nat)
    ensures ParseDigits(NatToString(n)) == n
  {
    if n >= 10 {
      var s := NatToString(n);
      assert s[..|s| - 1] == NatToString(n / 10);
      ParseNatToString(n / 10);
    }
  }

  /** Distinct numbers have distinct renderings. */
  lemma NatToStringInjective(a: nat, b: nat)
    ensures NatToString(a) == NatToString(b) <==> a == b
  {
    if NatToString(a) == NatToString(b) {
      ParseNatToString(a);
      ParseNatToString(b);
    }
  }

  /** `s.padStart(width, fill)`: left-fill up to `width`; never truncates. */
  function PadStart(s: string, width: nat, fill: char): (r: string)
    ensures |r| == if |s| >= width then |s| else width
    ensures r[|r| - |s|..] == s
    ensures forall i | 0 <= i < |r| - |s| :: r[i] == fill
  {
    if |s| >= width then s else seq(width - |s|, _ => fill) + s
  }

  /** Leading zeros do not change the value `parseInt` reads. */
  lemma {:induction false} ParseLeadingZeros(z: string, s: string)
    requires forall i | 0 <= i < |z| :: z[i] == '0'
    requires AllDigits(s)
    ensures AllDigits(z + s)
    ensures ParseDigits(z + s) == ParseDigits(s)
  {
    assert forall i | 0 <= i < |z + s| :: IsDigit((z + s)[i]) by {
      forall i | 0 <= i < |z + s| ensures IsDigit((z + s)[i]) {
        if i < |z| { assert (z + s)[i] == z[i]; } else { assert (z + s)[i] == s[i - |z|]; }
      }
    }
    if |s| == 0 {
      assert z + s == z;
      ParseZeros(z);
    } else {
      assert (z + s)[..|z + s| - 1] == z + s[..|s| - 1];
      ParseLeadingZeros(z, s[..|s| - 1]);
    }
  }

  lemma {:induction false} ParseZeros(z: string)
    requires forall i | 0 <= i < |z| :: z[i] == '0'
    ensures AllDigits(z) && ParseDigits(z) == 0
  {
    if |z| > 0 {
      ParseZeros(z[..|z| - 1]);
    }
  }

  predicate StartsWith(s: string, prefix: string) {
    |prefix| <= |s| && s[..|prefix|] == prefix
  }

  predicate EndsWith(s: string, suffix: string) {
    |suffix| <= |s| && s[|s| - |suffix|..] == suffix
  }

  predicate OccursAt(s: string, p: string, i: nat) {
    i + |p| <= |s| && s[i..i + |p|] == p
  }

  /** `s.includes(p)`. */
  predicate Contains(s: string, p: string) {
    exists i: nat | i <= |s| :: OccursAt(s, p, i)
  }

  /** `s.substring(0, n)` for n >= 0: the first n characters, or all of s. */
  function Take(s: string, n: nat): (r: string)
    ensures |r| == if n <= |s| then n else |s|
    ensures forall i | 0 <= i < |r| :: r[i] == s[i]
  {
    if n <= |s| then s[..n] else s
  }

  /** `toUpperCase` on the ASCII range; other characters are kept. */
  function UpperChar(c: char): char {
    if 'a' <= c <= 'z' then (c as int - 32) as char else c
  }

  function ToUpper(s: string): (r: string)
    ensures |r| == |s|
    ensures forall i | 0 <= i < |s| :: r[i] == UpperChar(s[i])
  {
    seq(|s|, i requires 0 <= i < |s| => UpperChar(s[i]))
  }

  predicate IsLowerHex(c: char) {
    IsDigit(c) || 'a' <= c <= 'f'
  }

  predicate IsUpperHex(c: char) {
    IsDigit(c) || 'A' <= c <= 'F'
  }

  /** `Array.prototype.join(sep)`. */
  function Join(parts: seq<string>, sep: string): string {
    if |parts| == 0 then ""
    else if |parts| == 1 then parts[0]
    else Join(parts[..|parts| - 1], sep) + sep + parts[|parts| - 1]
  }

  /** If `t` begins both with `a_` and with `b_` for digit strings a and b,
      then a and b are the same field. */
  lemma DigitFieldPrefix(a: string, b: string, t: string)
    requires AllDigits(a) && AllDigits(b)
    requires StartsWith(t, a + "_") && StartsWith(t, b + "_")
    ensures a == b
  {
    var m := if |a| <= |b| then |a| else |b|;
    assert t[m] == (a + "_")[m] && t[m] == (b + "_")[m];
    assert m < |a| ==> IsDigit((a + "_")[m]);
    assert m < |b| ==> IsDigit((b + "_")[m]);
    assert |a| == |b|;
    assert a == (a + "_")[..|a|] == t[..|a|] == (b + "_")[..|b|] == b;
  }
}

=== FILE: trabajador.dfy ===
/** Worker maintenance (`TrabajadorService`): create and update copy only
    the three schema fields from the untyped body, and a worker that still
    has payroll periods cannot be removed. */
module TrabajadorService {
  import opened Wrappers
  import opened Json
  import opened Ledger

  /** The whitelisted fields; `None` is a field the body leaves undefined. */
  datatype Patch = Patch(nombre: Option<string>, sueldo: Option<real>, tipo: Option<string>)

  function StringField(body: Object, key: string): (r: Result<Option<string>>)
    ensures key !in body ==> r == Ok(None)
    ensures key in body && body[key].JStr? ==> r == Ok(Some(body[key].s))
    ensures key in body && !body[key].JStr? ==> r.Err?
  {
    if key !in body then Ok(None)
    else if body[key].JStr? then Ok(Some(body[key].s))
    else Err(Validation("Argument `" + key + "`: Invalid value provided. Expected String."))
  }

  function NumberField(body: Object, key: string): (r: Result<Option<real>>)
    ensures key !in body ==> r == Ok(None)
    ensures key in body && body[key].JNum? ==> r == Ok(Some(body[key].n))
    ensures key in body && !body[key].JNum? ==> r.Err?
  {
    if key !in body then Ok(None)
    else if body[key].JNum? then Ok(Some(body[key].n))
    else Err(Validation("Argument `" + key + "`: Invalid value provided. Expected Float."))
  }

  /** `{ nombre: data.nombre, sueldo: data.sueldo, tipo: data.tipo }`,
      with the store's type check on each defined field. */
  function Whitelist(body: Object): (r: Result<Patch>)
    ensures r.Ok? <==> StringField(body, "nombre").Ok? && NumberField(body, "sueldo").Ok? && StringField(body, "tipo").Ok?
    ensures r.Ok? ==> r.value == Patch(StringField(body, "nombre").value, NumberField(body, "sueldo").value, StringField(body, "tipo").value)
  {
    var nombre :- StringField(body, "nombre");
    var sueldo :- NumberField(body, "sueldo");
    var tipo :- StringField(body, "tipo");
    Ok(Patch(nombre, sueldo, tipo))
  }

  /** Only `nombre`, `sueldo` and `tipo` are read: bodies that agree on
      those three keys give the same patch, whatever else they hold. */
  lemma WhitelistIgnoresOtherKeys(a: Object, b: Object)
    requires forall k | k in {"nombre", "sueldo", "tipo"} :: (k in a <==> k in b) && (k in a ==> a[k] == b[k])
    ensures Whitelist(a) == Whitelist(b)
  {
    assert ("nombre" in a <==> "nombre" in b) && ("nombre" in a ==> a["nombre"] == b["nombre"]);
    assert ("sueldo" in a <==> "sueldo" in b) && ("sueldo" in a ==> a["sueldo"] == b["sueldo"]);
    assert ("tipo" in a <==> "tipo" in b) && ("tipo" in a ==> a["tipo"] == b["tipo"]);
  }

  /** The patch's defined fields replace the worker's; undefined ones keep them. */
  function ApplyPatch(w: Worker, p: Patch): (r: Worker)
    ensures r.nombre == p.nombre.GetOr(w.nombre)
    ensures r.sueldo == p.sueldo.GetOr(w.sueldo)
    ensures r.tipo == p.tipo.GetOr(w.tipo)
  {
    Worker(p.nombre.GetOr(w.nombre), p.sueldo.GetOr(w.sueldo), p.tipo.GetOr(w.tipo))
  }

  /** `create(data)`: all three fields are required; the new worker gets
      the next id and nothing else changes. */
  function Create(db: Db, body: Object): (r: (Db, Result<nat>))
    ensures r.1.Err? ==> r.0 == db
    ensures r.1.Ok? <==>
      && Whitelist(body).Ok? && Whitelist(body).value.nombre.Some?
      && Whitelist(body).value.sueldo.Some? && Whitelist(body).value.tipo.Some?
    ensures r.1.Ok? ==>
      var p := Whitelist(body).value;
      && r.1.value == db.nextTrabajadorId
      && r.0 == db.(trabajadores := db.trabajadores[r.1.value := Worker(p.nombre.value, p.sueldo.value, p.tipo.value)],
                    nextTrabajadorId := db.nextTrabajadorId + 1)
  {
    var p := Whitelist(body);
    if p.Err? then (db, Err(p.error))
    else if p.value.nombre.None? || p.value.sueldo.None? || p.value.tipo.None? then
      (db, Err(Validation("Argument missing: nombre, sueldo and tipo are required.")))
    else
      var id := db.nextTrabajadorId;
      (db.(trabajadores := db.trabajadores[id := Worker(p.value.nombre.value, p.value.sueldo.value, p.value.tipo.value)],
           nextTrabajadorId := id + 1),
       Ok(id))
  }

  /** Creating a worker keeps the ledger consistent and leaves every
      existing worker, period and payment as it was. */
  lemma CreatePreserves(db: Db, body: Object)
    requires Consistent(db)
    ensures var db' := Create(db, body).0;
      && Consistent(db')
      && db'.nominas == db.nominas && db'.pagos == db.pagos
      && (forall id | id in db.trabajadores :: id in db'.trabajadores && db'.trabajadores[id] == db.trabajadores[id])
  {
  }

  /** `update(id, data)`: a missing worker is an error; otherwise the
      defined whitelisted fields replace the worker's and every other row
      is unchanged. */
  function Update(db: Db, id: nat, body: Object): (r: (Db, Result<Worker>))
    ensures r.1.Err? ==> r.0 == db
    ensures r.1.Ok? <==> id in db.trabajadores && Whitelist(body).Ok?
    ensures r.1.Ok? ==>
      && r.1.value == ApplyPatch(db.trabajadores[id], Whitelist(body).value)
      && r.0 == db.(trabajadores := db.trabajadores[id := r.1.value])
  {
    var p := Whitelist(body);
    if p.Err? then (db, Err(p.error))
    else if id !in db.trabajadores then (db, Err(NotFound("Record to update not found.")))
    else
      var w := ApplyPatch(db.trabajadores[id], p.value);
      (db.(trabajadores := db.trabajadores[id := w]), Ok(w))
  }

  /** Update touches one row only, keeps the ledger consistent, and a body
      with none of the three fields changes nothing. */
  lemma UpdatePreserves(db: Db, id: nat, body: Object)
    requires Consistent(db)
    ensures var db' := Update(db, id, body).0;
      && Consistent(db')
      && db'.trabajadores.Keys == db.trabajadores.Keys
      && (forall j | j in db.trabajadores && j != id :: db'.trabajadores[j] == db.trabajadores[j])
      && db'.nominas == db.nominas && db'.pagos == db.pagos
    ensures "nombre" !in body && "sueldo" !in body && "tipo" !in body ==> Update(db, id, body).0 == db
  {
  }

  /** `remove(id)`: refused while the worker has periods, which also keeps
      the ledger's references intact; a missing worker is an error;
      otherwise exactly that worker is deleted. */
  function Remove(db: Db, id: nat): (r: (Db, Result<Worker>))
    ensures r.1.Err? ==> r.0 == db
    ensures r.1.Ok? <==> id in db.trabajadores && PeriodsOf(db, id) == {}
    ensures r.1.Ok? ==> r.1.value == db.trabajadores[id] && r.0 == db.(trabajadores := db.trabajadores - {id})
  {
    if id in db.trabajadores && PeriodsOf(db, id) != {} then
      (db, Err(Validation("No se puede eliminar el trabajador porque tiene nóminas asociadas")))
    else if id !in db.trabajadores then (db, Err(NotFound("Record to delete does not exist.")))
    else (db.(trabajadores := db.trabajadores - {id}), Ok(db.trabajadores[id]))
  }

  /** Removal never leaves a period pointing at a missing worker. */
  lemma RemovePreserves(db: Db, id: nat)
    requires Consistent(db)
    ensures Consistent(Remove(db, id).0)
  {
    var r := Remove(db, id);
    if r.1.Ok? {
      forall n | n in db.nominas ensures db.nominas[n].trabajadorId != id {
        assert n !in PeriodsOf(db, id);
      }
    }
  }

  /** A worker with a period is refused, whatever else holds. */
  lemma RemoveRefusedWithPeriod(db: Db, id: nat, n: nat)
    requires id in db.trabajadores && n in db.nominas && db.nominas[n].trabajadorId == id
    ensures Remove(db, id).0 == db && Remove(db, id).1.Err?
  {
    assert n in PeriodsOf(db, id);
  }
}

=== FILE: wrappers.dfy ===
/** Failure-compatible result types shared by the whole model.

    The services signal failure by throwing an `Error` whose message the API
    boundary passes on unchanged; the model returns `Err` with the same kind of
    failure and the same message instead. */
module Wrappers {

  datatype Option<+T> = None | Some(value: T) {
    function GetOr(default: T): T {
      match this
      case Some(v) => v
      case None => default
    }
  }

  /** The failure kinds the services can raise. */
  datatype Error =
    | NotFound(message: string)     // a referenced row is missing
    | IOFailure(message: string)    // the file system refused a read or a write
    | Upstream(message: string)     // the payment provider failed or did not report "paid"
    | Validation(message: string)   // the ORM rejected a malformed argument
    | Constraint(message: string)   // the database refused a write (a foreign key)
    | TypeFailure(message: string)  // a property read on a missing relation
    | Configuration(message: string) // a required environment setting is missing

  datatype Result<+T> = Ok(value: T) | Err(error: Error) {
    predicate IsFailure() {
      Err?
    }

    function PropagateFailure<U>(): Result<U>
      requires Err?
    {
      Err(error)
    }

    function Extract(): T
      requires Ok?
    {
      value
    }
  }
}
